=== FILE: README.md ===
# intelliAsk backend, modelled in Dafny

intelliAsk answers free-text questions through a generative-language API
and keeps two stores on disk. `questions.json` is the question registry:
one entry per distinct slug, holding the trimmed, 500-character text of
the first question that produced it, in order of first registration. The
`answers/` directory is the answer cache: one `<slug>.txt` file per
answered slug. The backend (`server.js`) has three routes:

- `POST /ask` trims the question and cuts it to 500 characters. It
  registers the question under its slug. It answers from the cache on a
  hit. On a miss it asks the API and caches the API's answer.
- `GET /question/:slug` turns the slug back into display text. It serves
  the cached answer for the slug or, on a miss, asks the API with that
  display text. The page shows the answer formatted by `formatAnswerText`.
- `GET /sitemap.xml` lists a page URL for every registered question, with
  the slug passed through `escapeXml`.

The model is split into seven modules:

- `Text` (text.dfy): JavaScript string operations the code relies on.
  These are `\s` and `trim`, a global one-character `replace`, and
  `split`/`join` on one character.
- `Uri` (uri.dfy): `decodeURIComponent` in full, following the abstract
  operation Decode of ECMA-262 (section 19.2.6.6 of the 2022 edition). A
  URIError is `None`. A reference
  `encodeURIComponent` is included so the decoder has a proved inverse.
- `Slug` (slug.dfy): `questionToSlug` and `slugToQuestion`.
- `Registry` (registry.dfy): `getAllQuestions` and `saveQuestion` over the
  registry file. `None` means the file is absent.
- `AnswerCache` (cache.dfy): `getAnswerFromCache` and `saveAnswerToCache`.
  The cache directory is a map from slug to file contents.
- `Formatter` (formatter.dfy): `formatAnswerText`. This covers the lazy
  `**…**` bold regex, the `^\s*\*\s+` bullet regex, and the
  paragraph/list rendering.
- `Sitemap` (sitemap.dfy): `escapeXml` and the `<loc>` list.
- `Server` (server.dfy): the three handlers as pure functions.

Each handler takes the state (registry and cache) and returns the new
state, the reply, and the prompt it sent to the API, if any. The API is a
parameter: it either failed or responded, with or without text.

Strings are `seq<char>`, one character per Unicode scalar value (see the
line on characters under "Left out"). JavaScript truthiness is spelled out in three places:

- an empty cached file is a miss (`AnswerCache.IsHit`);
- an empty API text gives the fallback answer (`Server.AnswerText`);
- an empty `GEMINI_API_KEY` counts as missing (`Server.HasKey`).

`slugToQuestion` replaces every hyphen with a space first and only then
percent-decodes, and the model keeps that order. So the slug `a%2Db`
decodes to `a-b`: the escaped hyphen survives as a hyphen, while a literal
hyphen becomes a space.

The page route differs from `/ask` in three ways:

- it falls back to `Nessuna risposta.` where `/ask` uses
  `Nessuna risposta disponibile.`;
- it never checks the API key;
- it never touches the registry.

The model keeps all three differences.

## Model

| member | source | states |
|---|---|---|
| Slug.QuestionToSlug | server.js:59-65 | A slug uses only `[a-z0-9_-]` and is never longer than the lower-cased question. |
| Slug.QuestionToSlugIdempotent | server.js:59-65 | Slugging a slug gives the same slug. |
| Slug.SlugTextIsFixed | server.js:59-65 | Any text over `[a-z0-9_-]` is already its own slug. |
| Slug.StripPunctuationKeeps | server.js:62 | The punctuation strip keeps exactly the characters in `[\w\s-]` and drops all others. |
| Slug.HyphenateOutput | server.js:63 | After whitespace runs become hyphens, no whitespace is left, and every other character comes from the input. |
| Slug.HyphenateCopies | server.js:63 | A stretch without whitespace passes through hyphenation unchanged. |
| Slug.ToLowerHasNoCapital | server.js:61 | No ASCII capital letter survives lower-casing. |
| Slug.SlugOfTwoWords | server.js:59-65 | Two lower-case words separated by a space slug to the words joined by a hyphen. |
| Slug.SlugCollision | server.js:59-65 | For any two lower-case words, `Foo, Bar!` and `foo bar` both slug to `foo-bar`, so they share a registry entry and a cache file. |
| Slug.SlugIgnoresPunctuation | server.js:59-65 | Inserting, anywhere in a question, a character whose lower case lies outside `[\w\s-]` leaves the slug unchanged. |
| Slug.SlugIgnoresCase | server.js:59-65 | Replacing, anywhere in a question, a lower-case ASCII letter by its capital leaves the slug unchanged. |
| Slug.SlugToQuestion | server.js:79-81 | A slug without `%` decodes to its display text: the slug with every hyphen replaced by a space. |
| Slug.SlugToQuestionOfSlug | server.js:79-81 | Decoding never fails on a slug produced by `questionToSlug`. |
| Slug.HyphenateSpaced | server.js:59-81 | Reading hyphens back as spaces and hyphenating again restores the slug exactly when the slug has no two hyphens in a row. |
| Slug.ReslugRoundTrip | server.js:59-81 | Re-slugging a slug's display text gives the slug back if and only if the slug has no double hyphen. |
| Uri.DecodeUriComponent | server.js:80 | Text without `%` decodes to itself. Decoding never lengthens a text. A text that starts with a character other than `%` keeps that first character when it decodes. |
| Uri.DecodeEncode | server.js:80 | `decodeURIComponent` inverts `encodeURIComponent` on every text, including characters outside ASCII that are escaped as 2-, 3- and 4-byte UTF-8. |
| Registry.AllQuestions | server.js:83-86 | An absent registry file reads as the empty list, and an existing one as the list it holds. |
| Registry.FindBySlug | server.js:72 | `find` returns the first entry carrying the slug, or nothing when no entry carries it. |
| Registry.SaveQuestion | server.js:67-77 | The returned slug is the question's slug. The registry is unchanged when the slug is already registered. Otherwise the question is appended at the end, and an absent file starts as an empty list. |
| Registry.SaveQuestionRegisters | server.js:67-77 | After a save the slug is registered and the old list is a prefix of the new one. The list grows by exactly one entry when the slug was new, and by none otherwise. |
| Registry.SaveQuestionIdempotent | server.js:67-77 | Saving the same question twice has the effect of saving it once. |
| Registry.FirstWriterWins | server.js:72-75 | Once a slug is registered, any later question with the same slug leaves the registry as it is, so the first wording is kept. |
| Registry.SaveQuestionKeepsInvariants | server.js:67-77 | A save keeps registry slugs unique and keeps each slug equal to the slug of its question. |
| Registry.SaveAllRegisters | server.js:67-86 | After a sequence of saves, every saved question's slug is registered and the earlier entries are untouched. Slugs stay unique and well-formed. Every new entry holds one of the saved questions. |
| AnswerCache.GetAnswer | server.js:42-48 | A lookup finds an answer exactly when the slug's file exists, and returns that file's contents. |
| AnswerCache.SaveAnswer | server.js:50-57 | A save creates or overwrites the slug's file, and no other slug gains a file. |
| AnswerCache.ReadAfterWrite | server.js:42-57 | Reading a slug right after writing it returns what was written. |
| AnswerCache.WriteLeavesOthers | server.js:42-57 | Writing one slug leaves every other slug's lookup as it was. |
| AnswerCache.ApplyWritesIsLastWrite | server.js:42-57 | After any sequence of writes, a slug reads as its last write, or as its earlier contents if it was never written. |
| Formatter.CloseFrom | server.js:134 | The lazy `(.*?)\*\*` closes at the first `**` that has no line terminator before it, and fails when there is no such `**`. |
| Formatter.BoldIdentity | server.js:134 | The bold pass changes a line exactly when the line contains a match of `\*\*(.*?)\*\*`. |
| Formatter.BoldFromLength | server.js:134 | The bold pass never shortens a line, and lengthens it whenever a match opens at the scan position. |
| Formatter.BoldLengthens | server.js:134 | The bold pass makes a text strictly longer whenever a `**…**` match opens anywhere in it. |
| Formatter.BoldSpan | server.js:134 | `**w**` becomes `<strong>w</strong>` when `w` holds no asterisk and no line terminator. |
| Formatter.NoStarNoSpan | server.js:134 | A line without asterisks has no bold match and is left alone. |
| Formatter.IsBulletMatches | server.js:136 | The bullet test holds exactly when `^\s*\*\s+` matches, with the `*` right after the leading whitespace. |
| Formatter.BulletContent | server.js:137 | Removing the bullet prefix drops at least the `*` and one space, and leaves content that does not start with whitespace. |
| Formatter.BulletContentIsSuffix | server.js:137 | The bullet content is a suffix of the line, and everything dropped after the `*` is whitespace. |
| Formatter.ProcessLine | server.js:133-142 | After bolding, a bullet line becomes `<li>`, the text after its `^\s*\*\s+` prefix, then `</li>`; any other line stays as bolded. The result starts with `<li>` exactly when the bolded line is a bullet or already starts with `<li>`. |
| Formatter.ProcessLines | server.js:133-142 | Every line is processed on its own: the i-th processed line is the i-th line after the per-line step, and no line is added or dropped. |
| Formatter.FormatAnswerText | server.js:128-153 | The HTML is empty exactly when the answer is empty. When no line of the answer split on `\n` is, after bolding, a bullet or a line starting with `<li>`, the HTML is each bolded line inside `<p>…</p>`, with no separator. Otherwise it is `<ul>`, one entry per line, then `</ul>`: a bullet line gives `<li>` with the text after its marker, a line starting with `<li>` is kept, and any other line gives `<p>` around the bolded line. |
| Formatter.HasListItemsIff | server.js:145 | Some processed line starts with `<li>` exactly when some line, once bolded, is a bullet or already starts with `<li>`. |
| Formatter.ParagraphsOfPlainLines | server.js:147-149 | Without list lines, the paragraph rendering of the processed lines is each bolded line inside `<p>…</p>`. |
| Formatter.ListEntriesOfLines | server.js:147-148 | The list rendering of the processed lines is, line by line, the single-pass entry: `<li>` item for a bullet, the line itself when it starts with `<li>`, a paragraph otherwise. |
| Formatter.FormatPlainText | server.js:128-153 | Newline-free lines joined with `\n`, none of which is a bullet or starts with `<li>` after bolding, render as one `<p>` per bolded line, joined with no separator. |
| Formatter.FormatBulletList | server.js:128-153 | Bullet lines `* a`, `* b`, … become `<ul><li>a</li><li>b</li>…</ul>`. |
| Formatter.FormatRawListItem | server.js:144-152 | A single line that starts with `<li>` once bolded counts as a list item: the answer is `<ul>`, the bolded line, `</ul>`. A line with no `*` is wrapped as it stands. |
| Text.Trim | server.js:89 | The trimmed text neither starts nor ends with whitespace. It is empty exactly when the text is all whitespace, and a text without whitespace is returned unchanged. |
| Text.TrimIsInfix | server.js:89 | What `trim` keeps is an infix of the text with only whitespace before and after it. |
| Text.JoinSplit | server.js:131 | Joining the pieces of `split('\n')` with `\n` gives back the original text. |
| Text.SplitJoin | server.js:131 | Splitting a join of newline-free pieces gives back the pieces. |
| Text.ReplaceAllChars | server.js:80 | A global replace leaves no occurrence of the replaced character except those in the replacement. |
| Sitemap.EscapeXml | server.js:243-246 | Escaped text contains no `<` or `>`, and text without `&`, `<` or `>` is left as it is. |
| Sitemap.EscapeXmlIsPerChar | server.js:243-246 | The three chained replaces equal a one-pass escaper that maps each character to its entity. `&` goes first, so the `&` of `&lt;` and `&gt;` is not escaped again. |
| Sitemap.EscapeXmlIdentity | server.js:243-246 | Escaping leaves a text unchanged if and only if it contains none of `&`, `<`, `>`. |
| Sitemap.UnescapeEscape | server.js:243-246 | Reading the three entities back restores the original text. |
| Sitemap.EscapeXmlInjective | server.js:243-246 | Different texts escape to different texts. |
| Sitemap.EscapeXmlOfSlug | server.js:243-250 | A slug contains no markup and is printed verbatim. |
| Sitemap.SitemapLocs | server.js:248-253 | There is one `<loc>` per registered question, in registry order, each the production URL followed by `/question/` and the escaped slug. |
| Sitemap.SitemapLocsOfRegistry | server.js:240-253 | For a well-formed registry, each `<loc>` is the production URL followed by `/question/` and the slug as it is. |
| Sitemap.SitemapLocsDistinct | server.js:240-253 | When registry slugs are unique, no page is listed twice. |
| Server.AskPrompt | server.js:89 | The prompt is at most 500 characters and is a prefix of the trimmed question. It is the whole trimmed question when that fits, and it is empty exactly when the question is all whitespace. |
| Server.Ask | server.js:88-126 | A blank question gets `Domanda mancante`, with no state change and no API call. Any other question is registered by `saveQuestion` before anything else. A reply with an answer carries the question's slug and a non-empty answer. The prompt is sent only with a usable key. The cache changes only when the API answered, so a failed call leaves it as it was. On a miss for a non-blank question the prompt is sent exactly when the key is usable; the reply is `Chiave API Gemini mancante` without a key and `Errore da Gemini API` when the call fails. |
| Server.AskHitMakesNoCall | server.js:94-98 | `/ask` answers without an API call exactly when the question is not blank and its slug has a non-empty cached answer. That answer is returned and the cache is unchanged. |
| Server.AskFailureKeepsCache | server.js:100-125 | Without a usable key, or when the API call fails, the cache is untouched and a non-blank question stays registered. On a miss the reply is the missing-key error without a key and the API error otherwise. |
| Server.AskStoresAnswer | server.js:105-118 | On a miss with a key, the prompt is sent, and the API's text is cached under the slug and returned with it. If the API returned no text, `Nessuna risposta disponibile.` is cached and returned instead. |
| Server.AskTwiceIsHit | server.js:88-118 | After an answered `/ask`, asking again gives the same reply with no API call and no state change, whatever the key or the API. |
| Server.PageFor | server.js:177-186 | The page's title is the question and its answer the answer. Its description is the answer's first 150 characters, or the whole answer when shorter. Its body is the formatted answer. |
| Server.ShowQuestion | server.js:155-238 | The page route never touches the registry. It fails to decode exactly when `slugToQuestion` throws. A page's title is the decoded slug. Its answer is non-empty, its body is the formatted answer, and its description is a prefix of the answer. The decoded text is the only prompt it sends. The cache changes only when the page was generated, so a failed call leaves it as it was. On a hit the page is built from the cached answer with no call and no state change. On a miss the decoded text is sent, and a failed call gives `Errore nella generazione della risposta.` |
| Server.ShowMissStoresAnswer | server.js:159-175 | On a miss the decoded text is sent, the API's text is cached under the slug, and the page is built from that text. If the API returned no text, `Nessuna risposta.` is cached and shown instead. |
| Server.AskThenShow | server.js:155-186 | After `/ask` answers, the question's page comes from the cache with that answer, with no API call. Its title is the slug with hyphens read as spaces. |
| Server.ShowTwiceIsHit | server.js:159-175 | Serving a page a second time is a cache hit that returns the same page with no API call. |
| Server.PageTitleIsRaw | server.js:155-223 | The page title is the decoded slug, not escaped: a slug holding markup puts that markup into `<title>` and `<h1>`. |
| Server.AskKeepsGood | server.js:88-126 | `/ask` keeps registry slugs unique and well-formed, and keeps every cached answer non-empty. |
| Server.ShowKeepsGood | server.js:155-238 | The page route keeps the same invariant. |
| Server.SitemapPage | server.js:240-253 | One `<loc>` per registered question, in registry order, each the page URL of the escaped slug. Under the handlers' invariant each is the production URL with the slug verbatim, and no page is listed twice. |
| Server.AskListsPage | server.js:240-253 | Once `/ask` has taken a non-blank question, the sitemap lists its page, whatever happens after registration. |

## Left out

- Express plumbing is not modelled: CORS, helmet's security headers, the `/ask` rate limiter, static files, JSON body parsing and `app.listen`. None of these touch the registry, the cache or the answer text.
- The HTTP call to the API is a parameter of each handler (`Server.Gateway`). The request body's JSON shape, the endpoint URL and the key inside it are not modelled, and neither is the `response.data.candidates?.[0]…` path beyond "some text or none". A text that is present but not a string is not modelled.
- The file system is a value: the registry is `Option<seq<Question>>` and the cache is a map. Read and write errors, JSON parse errors of a corrupt `questions.json`, and the `mkdirSync` of the cache directory are not modelled. One write error is certain rather than accidental: a slug longer than 251 characters makes `answers/<slug>.txt` exceed the usual 255-byte file-name limit. The cache write then throws inside the `try`, so `/ask` replies with the API error, the page route with its error page, and nothing is cached; the model answers and caches such slugs normally.
- Concurrency is not modelled: each handler runs to completion on the state it was given. In one Node process the registration at the start of `/ask` is synchronous, so two registrations cannot interleave. The handlers can interleave only at the `await` of the API call: two requests for one slug can both miss the cache and both call the API, and the later cache write wins. Duplicate slugs in the registry need several processes sharing `questions.json`.
- A request whose body has no `question` string makes `req.body.question.trim()` throw before the handler's `try`. The model takes the question as a string.
- Server.ShowQuestion: `DecodeFailure` stands for the URIError that `slugToQuestion` throws outside the handler's `try`. The exception escapes the `async` handler and rejects its promise. What Express and Node then do is not modelled: under Express 4 no reply is sent, and Node reports an unhandled rejection.
- Express percent-decodes `req.params.slug` before `slugToQuestion` decodes it again. The model takes the parameter as Express delivers it, and uses the same text as the cache key.
- A slug that holds path characters (`../`) names a file outside `answers/` in the real file system. The model's cache is keyed by the slug text, so this aliasing is not modelled.
- Server.PageFor: the page is modelled as its title, answer, description and formatted body, not as the full HTML template. For the sitemap, only the `<loc>` list is modelled. The fixed `<changefreq>`/`<priority>` lines and the home-page `<url>` entry are left out.
- Slug.ToLower: lower-casing is exact on ASCII and on the two non-ASCII characters whose lower case contains ASCII (U+212A and U+0130). Any other non-ASCII character is kept as it is. The punctuation strip removes all such characters anyway, so the slug is unaffected.
- A Dafny `char` is a Unicode scalar value. A JavaScript string can hold lone surrogates, and a character above U+FFFF takes two code units there but one `char` here. As a result, `slice(0, 500)` counts such a character once, and `decodeURIComponent` yields it as one `char`.
- Uri.DecodeUriComponent: its contract states bounds and the `%`-free case. Its full behaviour is pinned down by Uri.DecodeEncode and by its definition, which follows the abstract operation Decode of ECMA-262 (section 19.2.6.6 of the 2022 edition).
- Formatter.FormatBulletList: states only the all-bullet answer of plain items, as a worked instance. Answers that mix bullets, `<li>` lines and other lines are covered by the contract of Formatter.FormatAnswerText.
- Logging (`console.error`, `console.log`) is left out. The helper scripts `fetchSitemap.js` and `generate-sitemap.js` are not part of this model.

=== FILE: cache.dfy ===
/** The answer cache: the directory `answers/`, one file `<slug>.txt` per
    answered slug. A directory of files keyed by name is a map from slug to
    file contents. */
module AnswerCache {
  import opened Text

  type Answers = map<string, string>

  /** `getAnswerFromCache`: the contents of the slug's file, or `null`
      (`None`) when no such file exists. */
  function GetAnswer(answers: Answers, slug: string): (r: Option<string>)
    ensures r.Some? <==> slug in answers
    ensures r.Some? ==> r.value == answers[slug]
  {
    if slug in answers then Some(answers[slug]) else None
  }

  /** `saveAnswerToCache`: create or overwrite the slug's file. */
  function SaveAnswer(answers: Answers, slug: string, answer: string): (r: Answers)
    ensures r.Keys == answers.Keys + {slug}
    ensures r[slug] == answer
  {
    answers[slug := answer]
  }

  /** A cached answer is used only when it is truthy: an empty file counts
      as a miss. */
  predicate IsHit(cached: Option<string>) {
    cached.Some? && cached.value != []
  }

  /** Reading a slug right after writing it gives back what was written. */
  lemma ReadAfterWrite(answers: Answers, slug: string, answer: string)
    ensures GetAnswer(SaveAnswer(answers, slug, answer), slug) == Some(answer)
  {
  }

  /** Writing one slug leaves every other slug's answer as it was. */
  lemma WriteLeavesOthers(answers: Answers, slug: string, answer: string, other: string)
    requires other != slug
    ensures GetAnswer(SaveAnswer(answers, slug, answer), other) == GetAnswer(answers, other)
  {
  }

  /** A write as a (slug, answer) pair. */
  datatype Write = Write(slug: string, answer: string)

  /** The cache after a sequence of writes, starting from `answers`. */
  function ApplyWrites(answers: Answers, writes: seq<Write>): Answers
    decreases |writes|
  {
    if writes == [] then answers
    else ApplyWrites(SaveAnswer(answers, writes[0].slug, writes[0].answer), writes[1..])
  }

  /** The reference reading of a sequence of writes: the answer of the last
      write to `slug`, if any. */
  function LastWrite(writes: seq<Write>, slug: string): (r: Option<string>)
    ensures r.Some? ==> exists i :: 0 <= i < |writes| && writes[i] == Write(slug, r.value)
    ensures r.None? <==> forall i :: 0 <= i < |writes| ==> writes[i].slug != slug
  {
    if writes == [] then None
    else if writes[|writes| - 1].slug == slug then Some(writes[|writes| - 1].answer)
    else LastWrite(writes[..|writes| - 1], slug)
  }

  /** After any sequence of writes the cache answers each slug with its last
      write, and a slug never written keeps its earlier answer. */
  lemma {:induction false} ApplyWritesIsLastWrite(answers: Answers, writes: seq<Write>, slug: string)
    ensures GetAnswer(ApplyWrites(answers, writes), slug) ==
            if LastWrite(writes, slug).Some? then LastWrite(writes, slug) else GetAnswer(answers, slug)
    decreases |writes|
  {
    if writes != [] {
      var n := |writes| - 1;
      var init := writes[..n];
      ApplyWritesSnoc(answers, init, writes[n]);
      assert init + [writes[n]] == writes;
      ApplyWritesIsLastWrite(answers, init, slug);
    }
  }

  /** Applying one more write at the end is one more `SaveAnswer`. */
  lemma {:induction false} ApplyWritesSnoc(answers: Answers, writes: seq<Write>, w: Write)
    ensures ApplyWrites(answers, writes + [w]) == SaveAnswer(ApplyWrites(answers, writes), w.slug, w.answer)
    decreases |writes|
  {
    if writes != [] {
      assert (writes + [w])[1..] == writes[1..] + [w];
      ApplyWritesSnoc(SaveAnswer(answers, writes[0].slug, writes[0].answer), writes[1..], w);
    }
  }
}

=== FILE: formatter.dfy ===
/** `formatAnswerText`: the light Markdown-to-HTML conversion applied to a
    cached answer before it is placed in a question page. Each line gets
    `**bold**` spans turned into `<strong>`, bullet lines (`* item`) become
    `<li>` items, and the lines are wrapped in `<p>` or, when some line is a
    list item, gathered in one `<ul>`. */
module Formatter {
  import opened Text

  /** Two asterisks start at index `j` of `t`. */
  predicate StarsAt(t: string, j: int) {
    0 <= j && j + 1 < |t| && t[j] == '*' && t[j + 1] == '*'
  }

  /** `(.*?)\*\*` started at `k` can stop with its closing `**` at `j`: the
      text in between holds no line terminator, which `.` does not match. */
  predicate ClosesAt(t: string, k: nat, j: nat) {
    k <= j && StarsAt(t, j) && forall m :: k <= m < j ==> !IsLineTerminator(t[m])
  }

  /** A whole match of `\*\*(.*?)\*\*` that opens at `p` and closes at `j`. */
  predicate SpanAt(t: string, p: nat, j: nat) {
    StarsAt(t, p) && ClosesAt(t, p + 2, j)
  }

  /** The regex holds no match anywhere in `t`. */
  ghost predicate NoSpan(t: string) {
    forall p: nat, j: nat :: !SpanAt(t, p, j)
  }

  /** Where the lazy `(.*?)\*\*` started at `k` closes: the least `j` it can
      close at, or `None` when it cannot close before a line terminator or
      the end of the text. */
  function CloseFrom(t: string, k: nat): (r: Option<nat>)
    ensures r.Some? ==> ClosesAt(t, k, r.value)
    ensures r.Some? ==> forall j: nat :: k <= j < r.value ==> !ClosesAt(t, k, j)
    ensures r.None? ==> forall j: nat :: !ClosesAt(t, k, j)
    decreases |t| - k
  {
    if k + 1 >= |t| then None
    else if t[k] == '*' && t[k + 1] == '*' then Some(k)
    else if IsLineTerminator(t[k]) then
      assert forall j: nat :: ClosesAt(t, k, j) ==> j == k;
      None
    else
      var r := CloseFrom(t, k + 1);
      assert forall j: nat :: k < j ==> (ClosesAt(t, k, j) <==> ClosesAt(t, k + 1, j));
      r
  }

  /** The scanner finds a match opening at `p`. */
  predicate MatchAt(t: string, p: nat) {
    StarsAt(t, p) && CloseFrom(t, p + 2).Some?
  }

  /** The global replace of `\*\*(.*?)\*\*` by `<strong>$1</strong>`, from index `p` on:
      at each position the regex either matches, and scanning resumes after
      the closing `**`, or the character is copied. */
  function BoldFrom(t: string, p: nat): string
    requires p <= |t|
    decreases |t| - p
  {
    if p == |t| then []
    else if MatchAt(t, p) then
      var j := CloseFrom(t, p + 2).value;
      "<strong>" + t[p + 2..j] + "</strong>" + BoldFrom(t, j + 2)
    else [t[p]] + BoldFrom(t, p + 1)
  }

  function Bold(line: string): string {
    BoldFrom(line, 0)
  }

  /** No match opens at or after `p`. */
  ghost predicate NoSpanFrom(t: string, p: nat) {
    forall q: nat, j: nat :: p <= q ==> !SpanAt(t, q, j)
  }

  /** The bold pass never shortens the text, and lengthens it whenever a
      match opens at `p`: `<strong></strong>` is longer than `****`. */
  lemma {:induction false} BoldFromLength(t: string, p: nat)
    requires p <= |t|
    ensures |BoldFrom(t, p)| >= |t| - p
    ensures p < |t| && MatchAt(t, p) ==> |BoldFrom(t, p)| > |t| - p
    decreases |t| - p
  {
    if p < |t| {
      if MatchAt(t, p) {
        BoldFromLength(t, CloseFrom(t, p + 2).value + 2);
      } else {
        BoldFromLength(t, p + 1);
      }
    }
  }

  /** The bold pass lengthens the text from `p` on whenever a match opens
      anywhere at or after `p`, not only at `p` itself. */
  lemma {:induction false} BoldLengthens(t: string, p: nat)
    requires p <= |t|
    ensures !NoSpanFrom(t, p) ==> |BoldFrom(t, p)| > |t| - p
    decreases |t| - p
  {
    if p < |t| {
      NoSpanFromStep(t, p);
      if MatchAt(t, p) {
        BoldFromLength(t, p);
      } else {
        BoldLengthens(t, p + 1);
      }
    } else {
      assert forall q: nat, j: nat :: p <= q ==> !SpanAt(t, q, j);
    }
  }

  /** The scanner's test at `p` agrees with the regex: it finds a match
      exactly when some span opens at `p`. */
  lemma NoSpanFromStep(t: string, p: nat)
    requires p < |t|
    ensures NoSpanFrom(t, p) <==> !MatchAt(t, p) && NoSpanFrom(t, p + 1)
  {
    if MatchAt(t, p) {
      assert SpanAt(t, p, CloseFrom(t, p + 2).value);
    } else {
      assert forall j: nat :: !SpanAt(t, p, j);
    }
  }

  /** From `p` on, the bold pass copies the text exactly when no match
      opens at or after `p`. */
  lemma {:induction false} BoldFromIdentity(t: string, p: nat)
    requires p <= |t|
    ensures BoldFrom(t, p) == t[p..] <==> NoSpanFrom(t, p)
    decreases |t| - p
  {
    if p < |t| {
      NoSpanFromStep(t, p);
      if MatchAt(t, p) {
        BoldFromLength(t, p);
      } else {
        BoldFromIdentity(t, p + 1);
        assert t[p..] == [t[p]] + t[p + 1..];
      }
    }
  }

  /** The bold pass changes a line exactly when the line holds a
      `**…**` span. */
  lemma BoldIdentity(line: string)
    ensures Bold(line) == line <==> NoSpan(line)
  {
    BoldFromIdentity(line, 0);
  }

  /** A line without asterisks is left alone by the bold pass. */
  lemma NoStarNoSpan(line: string)
    requires '*' !in line
    ensures NoSpan(line)
    ensures Bold(line) == line
  {
    forall p: nat, j: nat
      ensures !SpanAt(line, p, j)
    {
      if p < |line| {
        assert line[p] in line;
      }
    }
    BoldIdentity(line);
  }

  /** `**w**`, with `w` free of asterisks and line terminators, becomes
      `<strong>w</strong>`. */
  lemma BoldSpan(w: string)
    requires '*' !in w
    requires forall i :: 0 <= i < |w| ==> !IsLineTerminator(w[i])
    ensures Bold("**" + w + "**") == "<strong>" + w + "</strong>"
  {
    var t := "**" + w + "**";
    var n := |w| + 2;
    assert StarsAt(t, 0);
    assert ClosesAt(t, 2, n);
    assert forall m :: 2 <= m < n ==> t[m] == w[m - 2];
    assert CloseFrom(t, 2) == Some(n);
    assert t[2..n] == w;
    assert BoldFrom(t, n + 2) == [];
  }

  /** `/^\s*\*\s+/` matches with its `*` at index `i`: only whitespace
      before it, and whitespace right after it. */
  predicate BulletMatch(line: string, i: nat) {
    i + 1 < |line| && AllSpace(line[..i]) && line[i] == '*' && IsSpace(line[i + 1])
  }

  /** `/^\s*\*\s+/.test(line)`: the leading whitespace is followed by `*`
      and at least one more whitespace character. */
  predicate IsBullet(line: string) {
    var i := SkipSpaces(line, 0);
    i + 1 < |line| && line[i] == '*' && IsSpace(line[i + 1])
  }

  /** The bullet test agrees with the regex, whose `*` can only sit right
      after the leading whitespace. */
  lemma IsBulletMatches(line: string)
    ensures IsBullet(line) <==> exists i: nat :: BulletMatch(line, i)
    ensures IsBullet(line) ==> BulletMatch(line, SkipSpaces(line, 0))
  {
    var k := SkipSpaces(line, 0);
    if IsBullet(line) {
      assert BulletMatch(line, k);
    }
    if i: nat :| BulletMatch(line, i) {
      assert forall m :: 0 <= m < i ==> line[..i][m] == line[m];
      assert i == k;
    }
  }

  /** `line.replace(/^\s*\*\s+/, '')` on a bullet line: everything up to the
      `*` and the whitespace run after it is dropped. */
  function BulletContent(line: string): (content: string)
    requires IsBullet(line)
    ensures |content| + 2 <= |line|
    ensures content == [] || !IsSpace(content[0])
  {
    TrimStart(line[SkipSpaces(line, 0) + 1..])
  }

  /** What a bullet line keeps is a suffix of it, and what it drops after
      the `*` is whitespace. */
  lemma BulletContentIsSuffix(line: string)
    requires IsBullet(line)
    ensures BulletContent(line) == line[|line| - |BulletContent(line)|..]
    ensures forall m :: SkipSpaces(line, 0) < m < |line| - |BulletContent(line)| ==> IsSpace(line[m])
  {
    var k := SkipSpaces(line, 0) + 1;
    var rest := line[k..];
    TrimStartDropsSpaces(rest);
    var d := |rest| - |TrimStart(rest)|;
    assert rest[d..] == line[k + d..];
    forall m | k <= m < k + d
      ensures IsSpace(line[m])
    {
      assert line[m] == rest[m - k];
    }
  }

  predicate StartsWithLi(line: string) {
    StartsWith(line, "<li>")
  }

  /** The per-line step: bold spans first, then a bullet line becomes a
      list item; any other line is kept. */
  function ProcessLine(line: string): (r: string)
    ensures IsBullet(Bold(line)) ==> r == "<li>" + BulletContent(Bold(line)) + "</li>"
    ensures !IsBullet(Bold(line)) ==> r == Bold(line)
    ensures StartsWithLi(r) <==> IsListLine(line)
  {
    var b := Bold(line);
    if IsBullet(b) then
      ListItemStartsWithLi(BulletContent(b));
      "<li>" + BulletContent(b) + "</li>"
    else b
  }

  /** A raw line that reads as a list item once bolded: a bullet, or a line
      that already starts with `<li>`. */
  predicate IsListLine(line: string) {
    IsBullet(Bold(line)) || StartsWithLi(Bold(line))
  }

  function ProcessLines(lines: seq<string>): (r: seq<string>)
    ensures |r| == |lines|
    ensures forall i :: 0 <= i < |lines| ==> r[i] == ProcessLine(lines[i])
  {
    if lines == [] then [] else [ProcessLine(lines[0])] + ProcessLines(lines[1..])
  }

  /** `processedLines.some(line => line.startsWith('<li>'))`. */
  predicate HasListItems(lines: seq<string>) {
    exists i :: 0 <= i < |lines| && StartsWithLi(lines[i])
  }

  function Paragraph(line: string): string {
    "<p>" + line + "</p>"
  }

  /** Each line wrapped in `<p>`, joined with no separator. */
  function Paragraphs(lines: seq<string>): string {
    if lines == [] then [] else Paragraph(lines[0]) + Paragraphs(lines[1..])
  }

  /** Inside a list, a line that starts with `<li>` is kept as it is and
      any other line is wrapped in `<p>`. */
  function ListEntries(lines: seq<string>): string {
    if lines == [] then []
    else (if StartsWithLi(lines[0]) then lines[0] else Paragraph(lines[0])) + ListEntries(lines[1..])
  }

  /** `formatAnswerText`: empty for an empty answer; otherwise the lines
      split on `\n`, processed, and rendered as paragraphs or, when some
      processed line starts with `<li>`, as one `<ul>`. */
  function FormatAnswerText(raw: string): (html: string)
    ensures html == [] <==> raw == []
    ensures raw != [] && (forall i :: 0 <= i < |Split(raw, '\n')| ==> !IsListLine(Split(raw, '\n')[i])) ==>
              html == BoldParagraphs(Split(raw, '\n'))
    ensures raw != [] && (exists i :: 0 <= i < |Split(raw, '\n')| && IsListLine(Split(raw, '\n')[i])) ==>
              html == "<ul>" + ListBody(Split(raw, '\n')) + "</ul>"
  {
    if raw == [] then []
    else
      var lines := Split(raw, '\n');
      HasListItemsIff(lines);
      ParagraphsOfPlainLines(lines);
      ListEntriesOfLines(lines);
      Render(ProcessLines(lines))
  }

  /** The reference rendering of an answer without list lines: each raw
      line, bolded, in its own `<p>`. */
  function BoldParagraphs(lines: seq<string>): string {
    if lines == [] then [] else Paragraph(Bold(lines[0])) + BoldParagraphs(lines[1..])
  }

  /** What one raw line contributes inside a list, in a single pass: a
      bullet becomes `<li>` with the text after its marker, a line already
      starting with `<li>` is kept, and any other line becomes a paragraph. */
  function ListEntry(line: string): string {
    var b := Bold(line);
    if IsBullet(b) then "<li>" + BulletContent(b) + "</li>"
    else if StartsWithLi(b) then b
    else Paragraph(b)
  }

  /** The reference body of a list: the entries of the raw lines in order. */
  function ListBody(lines: seq<string>): string {
    if lines == [] then [] else ListEntry(lines[0]) + ListBody(lines[1..])
  }

  /** Some processed line starts with `<li>` exactly when some raw line is a
      list line. */
  lemma HasListItemsIff(lines: seq<string>)
    ensures HasListItems(ProcessLines(lines)) <==> exists i :: 0 <= i < |lines| && IsListLine(lines[i])
  {
  }

  /** Without list lines, the paragraphs of the processed lines are the
      bolded raw lines, each in its `<p>`. */
  lemma {:induction false} ParagraphsOfPlainLines(lines: seq<string>)
    ensures (forall i :: 0 <= i < |lines| ==> !IsListLine(lines[i])) ==>
              Paragraphs(ProcessLines(lines)) == BoldParagraphs(lines)
  {
    if lines != [] && forall i :: 0 <= i < |lines| ==> !IsListLine(lines[i]) {
      assert !IsListLine(lines[0]);
      assert forall i :: 0 <= i < |lines| - 1 ==> lines[1..][i] == lines[i + 1];
      ParagraphsOfPlainLines(lines[1..]);
      assert ProcessLines(lines) == [Bold(lines[0])] + ProcessLines(lines[1..]);
    }
  }

  /** Rendering the processed lines as list entries is the single-pass
      reference `ListBody`. */
  lemma {:induction false} ListEntriesOfLines(lines: seq<string>)
    ensures ListEntries(ProcessLines(lines)) == ListBody(lines)
  {
    if lines != [] {
      ListEntriesOfLines(lines[1..]);
      var p := ProcessLine(lines[0]);
      assert ProcessLines(lines) == [p] + ProcessLines(lines[1..]);
      assert (if StartsWithLi(p) then p else Paragraph(p)) == ListEntry(lines[0]);
    }
  }

  /** The processed lines as paragraphs or, when some line starts with
      `<li>`, as one list. */
  function Render(processed: seq<string>): (html: string)
    ensures processed != [] ==> html != []
  {
    if HasListItems(processed) then "<ul>" + ListEntries(processed) + "</ul>"
    else if processed == [] then []
    else
      assert Paragraphs(processed) == Paragraph(processed[0]) + Paragraphs(processed[1..]);
      Paragraphs(processed)
  }

  /** An answer made of newline-free lines is rendered from those lines. */
  lemma FormatLines(lines: seq<string>)
    requires |lines| >= 1
    requires forall i :: 0 <= i < |lines| ==> '\n' !in lines[i]
    requires Join(lines, '\n') != []
    ensures FormatAnswerText(Join(lines, '\n')) == Render(ProcessLines(lines))
  {
    SplitJoin(lines, '\n');
  }

  /** An answer made of newline-free lines, none of which is a list line
      once bolded, becomes one `<p>` per line holding the bolded line. */
  lemma FormatPlainText(lines: seq<string>)
    requires |lines| >= 1
    requires forall i :: 0 <= i < |lines| ==> '\n' !in lines[i] && !IsListLine(lines[i])
    requires Join(lines, '\n') != []
    ensures FormatAnswerText(Join(lines, '\n')) == BoldParagraphs(lines)
  {
    SplitJoin(lines, '\n');
  }

  /** A bullet line `* item`. */
  function BulletLine(item: string): string {
    "* " + item
  }

  function BulletLines(items: seq<string>): (lines: seq<string>)
    ensures |lines| == |items|
  {
    if items == [] then [] else [BulletLine(items[0])] + BulletLines(items[1..])
  }

  /** The list items `<li>item</li>` for the given items. */
  function ListItems(items: seq<string>): string {
    if items == [] then [] else "<li>" + items[0] + "</li>" + ListItems(items[1..])
  }

  /** A plain item: no asterisk, no newline, not starting with whitespace. */
  predicate IsPlainItem(item: string) {
    '*' !in item && '\n' !in item && (item == [] || !IsSpace(item[0]))
  }

  /** A bullet line of a plain item becomes `<li>item</li>`. */
  lemma BulletLineProcessed(item: string)
    requires IsPlainItem(item)
    ensures ProcessLine(BulletLine(item)) == "<li>" + item + "</li>"
  {
    var line := BulletLine(item);
    assert line[0] == '*' && line[1] == ' ';
    assert forall p :: 1 < p < |line| ==> line[p] == item[p - 2];
    assert forall p :: 1 < p < |line| ==> line[p] != '*';
    assert forall p: nat, j: nat :: !SpanAt(line, p, j);
    BoldIdentity(line);
    assert SkipSpaces(line, 0) == 0;
    assert IsBullet(line);
    assert line[1..][1..] == item;
    assert TrimStart(item) == item;
    assert BulletContent(line) == item;
  }

  /** Each bullet line of plain items becomes its `<li>` item. */
  lemma {:induction false} BulletLinesProcessed(items: seq<string>)
    requires forall i :: 0 <= i < |items| ==> IsPlainItem(items[i])
    ensures forall i :: 0 <= i < |items| ==> ProcessLines(BulletLines(items))[i] == "<li>" + items[i] + "</li>"
    ensures ListEntries(ProcessLines(BulletLines(items))) == ListItems(items)
  {
    if items != [] {
      BulletLineProcessed(items[0]);
      BulletLinesProcessed(items[1..]);
      var ps := ProcessLines(BulletLines(items));
      assert ps == ["<li>" + items[0] + "</li>"] + ProcessLines(BulletLines(items[1..]));
      ListItemStartsWithLi(items[0]);
    }
  }

  /** Bullet lines `* a`, `* b`, … become one list `<ul><li>a</li><li>b</li>…</ul>`. */
  lemma FormatBulletList(items: seq<string>)
    requires |items| >= 1
    requires forall i :: 0 <= i < |items| ==> IsPlainItem(items[i])
    ensures FormatAnswerText(Join(BulletLines(items), '\n')) == "<ul>" + ListItems(items) + "</ul>"
  {
    var lines := BulletLines(items);
    BulletLinesFree(items);
    BulletLinesNotEmpty(items);
    FormatLines(lines);
    BulletLinesProcessed(items);
    var ps := ProcessLines(lines);
    ListItemStartsWithLi(items[0]);
    assert StartsWithLi(ps[0]);
    assert HasListItems(ps);
    assert Render(ps) == "<ul>" + ListItems(items) + "</ul>";
  }

  lemma ListItemStartsWithLi(item: string)
    ensures StartsWithLi("<li>" + item + "</li>")
  {
    assert ("<li>" + item + "</li>")[..4] == "<li>";
  }

  /** Bullet lines, joined, are not empty. */
  lemma BulletLinesNotEmpty(items: seq<string>)
    requires |items| >= 1
    ensures Join(BulletLines(items), '\n') != []
  {
    var lines := BulletLines(items);
    assert lines[0] == BulletLine(items[0]);
    JoinHead(lines, '\n');
    assert |lines[0]| >= 2;
  }

  /** Bullet lines of plain items hold no newline. */
  lemma {:induction false} BulletLinesFree(items: seq<string>)
    requires forall i :: 0 <= i < |items| ==> IsPlainItem(items[i])
    ensures forall i :: 0 <= i < |items| ==> '\n' !in BulletLines(items)[i]
  {
    if items != [] {
      BulletLinesFree(items[1..]);
      var lines := BulletLines(items);
      assert lines == [BulletLine(items[0])] + BulletLines(items[1..]);
      forall i | 0 <= i < |items|
        ensures '\n' !in lines[i]
      {
        if i == 0 {
          assert BulletLine(items[0]) == ['*', ' '] + items[0];
        } else {
          assert lines[i] == BulletLines(items[1..])[i - 1];
        }
      }
    }
  }

  /** A join starts with its first piece. */
  lemma JoinHead(parts: seq<string>, sep: char)
    requires |parts| >= 1
    ensures StartsWith(Join(parts, sep), parts[0])
  {
    if |parts| > 1 {
      assert Join(parts, sep) == parts[0] + ([sep] + Join(parts[1..], sep));
    }
  }

  /** A line that itself starts with `<li>` counts as a list item, so the
      answer is wrapped in `<ul>` and the line gets neither `<p>` nor a
      closing `</li>`. */
  lemma FormatRawListItem(line: string)
    requires StartsWithLi(Bold(line)) && '\n' !in line
    ensures FormatAnswerText(line) == "<ul>" + Bold(line) + "</ul>"
    ensures '*' !in line ==> FormatAnswerText(line) == "<ul>" + line + "</ul>"
  {
    var b := Bold(line);
    assert b[0] == '<';
    assert SkipSpaces(b, 0) == 0;
    assert !IsBullet(b);
    assert ProcessLine(line) == b;
    assert Join([line], '\n') == line;
    FormatLines([line]);
    assert ProcessLines([line]) == [b];
    assert HasListItems([b]);
    assert ListEntries([b]) == b + ListEntries([]);
    if '*' !in line {
      NoStarNoSpan(line);
    }
  }
}

=== FILE: registry.dfy ===
/** The question registry: `questions.json`, one entry per distinct slug,
    holding the trimmed, 500-character text of the first question asked
    through `/ask` that produced it, in order of first registration. */
module Registry {
  import opened Text
  import opened Slug

  /** One entry of the registry: the question as asked and its slug. */
  datatype Question = Question(question: string, slug: string)

  /** `getAllQuestions`: the registry file's list, or the empty list while
      the file does not exist (`None`). */
  function AllQuestions(file: Option<seq<Question>>): (qs: seq<Question>)
    ensures file.None? ==> qs == []
    ensures file.Some? ==> qs == file.value
  {
    if file.None? then [] else file.value
  }

  /** Some entry of `qs` carries `slug`. */
  predicate HasSlug(qs: seq<Question>, slug: string) {
    exists i :: 0 <= i < |qs| && qs[i].slug == slug
  }

  /** No two entries share a slug. */
  predicate UniqueSlugs(qs: seq<Question>) {
    forall i, j :: 0 <= i < j < |qs| ==> qs[i].slug != qs[j].slug
  }

  /** Every entry's slug is the slug of its own question. */
  predicate WellFormed(qs: seq<Question>) {
    forall i :: 0 <= i < |qs| ==> qs[i].slug == QuestionToSlug(qs[i].question)
  }

  /** `questions.find(q => q.slug === slug)`, as the index of the first entry
      carrying `slug`. */
  function FindBySlug(qs: seq<Question>, slug: string): (r: Option<nat>)
    ensures r.Some? ==> r.value < |qs| && qs[r.value].slug == slug
    ensures r.Some? ==> forall j :: 0 <= j < r.value ==> qs[j].slug != slug
    ensures r.None? ==> forall j :: 0 <= j < |qs| ==> qs[j].slug != slug
  {
    if qs == [] then None
    else if qs[0].slug == slug then Some(0)
    else match FindBySlug(qs[1..], slug)
      case None => None
      case Some(k) => Some(k + 1)
  }

  /** What `saveQuestion` leaves behind: the registry file and the slug it returns. */
  datatype Saved = Saved(file: Option<seq<Question>>, slug: string)

  /** `saveQuestion`: slug the question, and append it to the registry only
      when no entry carries that slug yet; the slug is returned either way. */
  function SaveQuestion(file: Option<seq<Question>>, question: string): (r: Saved)
    ensures r.slug == QuestionToSlug(question)
    ensures HasSlug(AllQuestions(file), r.slug) ==> r.file == file
    ensures !HasSlug(AllQuestions(file), r.slug) ==>
              r.file == Some(AllQuestions(file) + [Question(question, r.slug)])
  {
    var slug := QuestionToSlug(question);
    var qs := AllQuestions(file);
    if FindBySlug(qs, slug).None? then Saved(Some(qs + [Question(question, slug)]), slug)
    else Saved(file, slug)
  }

  /** After a save the returned slug is registered, the old entries are a
      prefix of the new list, and the list grew by one exactly when the slug
      was new. */
  lemma SaveQuestionRegisters(file: Option<seq<Question>>, question: string)
    ensures HasSlug(AllQuestions(SaveQuestion(file, question).file), QuestionToSlug(question))
    ensures AllQuestions(file) <= AllQuestions(SaveQuestion(file, question).file)
    ensures |AllQuestions(SaveQuestion(file, question).file)| ==
            |AllQuestions(file)| + (if HasSlug(AllQuestions(file), QuestionToSlug(question)) then 0 else 1)
  {
    var qs := AllQuestions(file);
    var slug := QuestionToSlug(question);
    if !HasSlug(qs, slug) {
      var qs' := qs + [Question(question, slug)];
      assert qs'[|qs|].slug == slug;
    }
  }

  /** Saving the same question twice changes nothing the second time. */
  lemma SaveQuestionIdempotent(file: Option<seq<Question>>, question: string)
    ensures SaveQuestion(SaveQuestion(file, question).file, question) == SaveQuestion(file, question)
  {
    SaveQuestionRegisters(file, question);
  }

  /** First writer wins: once a slug is registered, saving any question with
      the same slug leaves the registry as it is, so the entry keeps the
      wording of the question that first produced the slug. */
  lemma FirstWriterWins(file: Option<seq<Question>>, first: string, second: string)
    requires QuestionToSlug(first) == QuestionToSlug(second)
    ensures SaveQuestion(SaveQuestion(file, first).file, second).file == SaveQuestion(file, first).file
    ensures SaveQuestion(SaveQuestion(file, first).file, second).slug == SaveQuestion(file, first).slug
  {
    SaveQuestionRegisters(file, first);
  }

  /** A save keeps the registry free of duplicate slugs and keeps every
      entry's slug equal to the slug of its question. */
  lemma SaveQuestionKeepsInvariants(file: Option<seq<Question>>, question: string)
    ensures UniqueSlugs(AllQuestions(file)) ==> UniqueSlugs(AllQuestions(SaveQuestion(file, question).file))
    ensures WellFormed(AllQuestions(file)) ==> WellFormed(AllQuestions(SaveQuestion(file, question).file))
  {
    var slug := QuestionToSlug(question);
    if !HasSlug(AllQuestions(file), slug) {
      AppendKeepsInvariants(AllQuestions(file), question, slug);
    }
  }

  /** Appending an entry whose slug is new and is the slug of its question
      keeps both invariants. */
  lemma AppendKeepsInvariants(qs: seq<Question>, question: string, slug: string)
    requires slug == QuestionToSlug(question) && !HasSlug(qs, slug)
    ensures UniqueSlugs(qs) ==> UniqueSlugs(qs + [Question(question, slug)])
    ensures WellFormed(qs) ==> WellFormed(qs + [Question(question, slug)])
  {
    var qs' := qs + [Question(question, slug)];
    if UniqueSlugs(qs) {
      forall i, j | 0 <= i < j < |qs'|
        ensures qs'[i].slug != qs'[j].slug
      {
        assert qs'[i] == qs[i];
        if j < |qs| {
          assert qs'[j] == qs[j];
        }
      }
    }
    if WellFormed(qs) {
      forall i | 0 <= i < |qs'|
        ensures qs'[i].slug == QuestionToSlug(qs'[i].question)
      {
        if i < |qs| {
          assert qs'[i] == qs[i];
        }
      }
    }
  }

  /** `saveQuestion` applied to each question in turn. */
  function SaveAll(file: Option<seq<Question>>, questions: seq<string>): Option<seq<Question>>
    decreases |questions|
  {
    if questions == [] then file
    else SaveAll(SaveQuestion(file, questions[0]).file, questions[1..])
  }

  /** Saving a sequence of questions only ever appends to the registry. */
  lemma {:induction false} SaveAllPrefix(file: Option<seq<Question>>, questions: seq<string>)
    ensures AllQuestions(file) <= AllQuestions(SaveAll(file, questions))
    decreases |questions|
  {
    if questions != [] {
      SaveQuestionRegisters(file, questions[0]);
      SaveAllPrefix(SaveQuestion(file, questions[0]).file, questions[1..]);
    }
  }

  /** Saving a sequence of questions keeps the registry's invariants. */
  lemma {:induction false} SaveAllKeepsInvariants(file: Option<seq<Question>>, questions: seq<string>)
    requires UniqueSlugs(AllQuestions(file)) && WellFormed(AllQuestions(file))
    ensures UniqueSlugs(AllQuestions(SaveAll(file, questions)))
    ensures WellFormed(AllQuestions(SaveAll(file, questions)))
    decreases |questions|
  {
    if questions != [] {
      SaveQuestionKeepsInvariants(file, questions[0]);
      SaveAllKeepsInvariants(SaveQuestion(file, questions[0]).file, questions[1..]);
    }
  }

  /** A registered slug stays registered as the list grows. */
  lemma HasSlugInExtension(qs: seq<Question>, longer: seq<Question>, slug: string)
    requires HasSlug(qs, slug) && qs <= longer
    ensures HasSlug(longer, slug)
  {
    var j :| 0 <= j < |qs| && qs[j].slug == slug;
    assert longer[j] == qs[j];
  }

  /** Every question saved has its slug registered afterwards. */
  lemma {:induction false} SaveAllRegistersEach(file: Option<seq<Question>>, questions: seq<string>)
    ensures forall i :: 0 <= i < |questions| ==>
              HasSlug(AllQuestions(SaveAll(file, questions)), QuestionToSlug(questions[i]))
    decreases |questions|
  {
    if questions != [] {
      var next := SaveQuestion(file, questions[0]).file;
      var after := AllQuestions(SaveAll(file, questions));
      assert after == AllQuestions(SaveAll(next, questions[1..]));
      SaveQuestionRegisters(file, questions[0]);
      SaveAllPrefix(next, questions[1..]);
      HasSlugInExtension(AllQuestions(next), after, QuestionToSlug(questions[0]));
      SaveAllRegistersEach(next, questions[1..]);
      assert forall i :: 0 < i < |questions| ==> questions[i] == questions[1..][i - 1];
    }
  }

  /** Every entry a sequence of saves adds holds one of the questions saved. */
  lemma {:induction false} SaveAllAddsSaved(file: Option<seq<Question>>, questions: seq<string>)
    ensures forall k :: |AllQuestions(file)| <= k < |AllQuestions(SaveAll(file, questions))| ==>
              AllQuestions(SaveAll(file, questions))[k].question in questions
    decreases |questions|
  {
    if questions != [] {
      var next := SaveQuestion(file, questions[0]).file;
      var before := AllQuestions(file);
      var mid := AllQuestions(next);
      var after := AllQuestions(SaveAll(file, questions));
      assert after == AllQuestions(SaveAll(next, questions[1..]));
      SaveQuestionRegisters(file, questions[0]);
      SaveAllPrefix(next, questions[1..]);
      SaveAllAddsSaved(next, questions[1..]);
      forall k | |before| <= k < |after|
        ensures after[k].question in questions
      {
        if k < |mid| {
          assert after[k] == mid[k];
        } else {
          assert after[k].question in questions[1..];
        }
      }
    }
  }

  /** After saving a sequence of questions, each of their slugs is
      registered, the earlier entries are untouched, the registry still has
      unique, well-formed slugs, and every new entry is one of the
      questions saved. */
  lemma SaveAllRegisters(file: Option<seq<Question>>, questions: seq<string>)
    requires UniqueSlugs(AllQuestions(file)) && WellFormed(AllQuestions(file))
    ensures AllQuestions(file) <= AllQuestions(SaveAll(file, questions))
    ensures UniqueSlugs(AllQuestions(SaveAll(file, questions)))
    ensures WellFormed(AllQuestions(SaveAll(file, questions)))
    ensures forall i :: 0 <= i < |questions| ==>
              HasSlug(AllQuestions(SaveAll(file, questions)), QuestionToSlug(questions[i]))
    ensures forall k :: |AllQuestions(file)| <= k < |AllQuestions(SaveAll(file, questions))| ==>
              AllQuestions(SaveAll(file, questions))[k].question in questions
  {
    SaveAllPrefix(file, questions);
    SaveAllKeepsInvariants(file, questions);
    SaveAllRegistersEach(file, questions);
    SaveAllAddsSaved(file, questions);
  }
}

=== FILE: server.dfy ===
/** The request handlers of the backend: `POST /ask`, `GET /question/:slug`
    and `GET /sitemap.xml`, over a state made of the question registry and
    the answer cache. The generative-language API is a parameter: what it
    answered (or that it failed) is given, and each handler reports which
    prompt, if any, it sent. */
module Server {
  import opened Text
  import opened Slug
  import opened Registry
  import opened AnswerCache
  import opened Formatter
  import opened Sitemap

  /** The answer `/ask` stores when the API returns no text. */
  const NoAnswerAsk := "Nessuna risposta disponibile."
  /** The answer `/question/:slug` stores when the API returns no text. */
  const NoAnswerPage := "Nessuna risposta."
  /** `/ask` keeps at most this many characters of the trimmed question. */
  const MaxPromptLength := 500
  /** The page's meta description is the answer cut to this length. */
  const DescriptionLength := 150

  /** The files the handlers read and write. */
  datatype State = State(questions: Option<seq<Question>>, answers: Answers)

  /** What the API call did: it failed (a network error or an error
      status), or it responded, with the text of the first part of the
      first candidate when the response has one. */
  datatype Gateway = Failed | Responded(text: Option<string>)

  /** `…?.text || fallback`: an absent or empty text gives the fallback. */
  function AnswerText(text: Option<string>, fallback: string): string {
    if text.Some? && text.value != [] then text.value else fallback
  }

  /** `GEMINI_API_KEY` is usable when it is set and not empty. */
  predicate HasKey(apiKey: Option<string>) {
    apiKey.Some? && apiKey.value != []
  }

  /** `req.body.question.trim().slice(0, 500)`. */
  function AskPrompt(question: string): (prompt: string)
    ensures |prompt| <= MaxPromptLength
    ensures prompt <= Trim(question)
    ensures |Trim(question)| <= MaxPromptLength ==> prompt == Trim(question)
    ensures prompt == [] <==> AllSpace(question)
  {
    var t := Trim(question);
    if |t| <= MaxPromptLength then t else t[..MaxPromptLength]
  }

  /** The replies of `POST /ask`. */
  datatype AskResponse =
    | Answered(answer: string, slug: string)   // 200 `{ answer, slug }`
    | MissingQuestion                          // 400 `Domanda mancante`
    | MissingKey                               // 500 `Chiave API Gemini mancante`
    | GatewayError                             // 500 `Errore da Gemini API`

  /** The state after a request, the reply, and the prompt sent to the API. */
  datatype AskOutcome = AskOutcome(state: State, response: AskResponse, sent: Option<string>)

  /** `POST /ask`: reject a blank question; otherwise register it, answer
      from the cache on a hit, refuse without an API key, and ask the API,
      caching its answer, on a miss. */
  function Ask(s: State, question: string, apiKey: Option<string>, gateway: Gateway): (out: AskOutcome)
    ensures out.response.MissingQuestion? <==> AllSpace(question)
    ensures out.response.MissingQuestion? ==> out.state == s && out.sent == None
    ensures !AllSpace(question) ==> out.state.questions == SaveQuestion(s.questions, AskPrompt(question)).file
    ensures out.response.Answered? ==>
              out.response.slug == QuestionToSlug(AskPrompt(question)) && out.response.answer != []
    ensures out.sent.Some? ==> out.sent.value == AskPrompt(question) && HasKey(apiKey)
    ensures out.state.answers != s.answers ==> out.response.Answered? && out.sent.Some?
    ensures gateway.Failed? ==> out.state.answers == s.answers
    ensures !AllSpace(question) && !IsHit(GetAnswer(s.answers, QuestionToSlug(AskPrompt(question)))) ==>
              out.sent.Some? == HasKey(apiKey)
              && (!HasKey(apiKey) ==> out.response == MissingKey)
              && (HasKey(apiKey) && gateway.Failed? ==> out.response == GatewayError)
  {
    var prompt := AskPrompt(question);
    if prompt == [] then AskOutcome(s, MissingQuestion, None)
    else
      var saved := SaveQuestion(s.questions, prompt);
      var registered := s.(questions := saved.file);
      var cached := GetAnswer(s.answers, saved.slug);
      if IsHit(cached) then AskOutcome(registered, Answered(cached.value, saved.slug), None)
      else if !HasKey(apiKey) then AskOutcome(registered, MissingKey, None)
      else match gateway
        case Failed => AskOutcome(registered, GatewayError, Some(prompt))
        case Responded(text) =>
          var answer := AnswerText(text, NoAnswerAsk);
          AskOutcome(registered.(answers := SaveAnswer(s.answers, saved.slug, answer)),
                     Answered(answer, saved.slug), Some(prompt))
  }

  /** The slug `/ask` files a question under. */
  function AskSlug(question: string): string {
    QuestionToSlug(AskPrompt(question))
  }

  /** `/ask` answers without calling the API exactly when the question is
      not blank and the cache holds a non-empty answer for its slug; that
      answer is returned and the cache is left as it is. */
  lemma AskHitMakesNoCall(s: State, question: string, apiKey: Option<string>, gateway: Gateway)
    ensures (Ask(s, question, apiKey, gateway).response.Answered? && Ask(s, question, apiKey, gateway).sent.None?)
            <==> (!AllSpace(question) && IsHit(GetAnswer(s.answers, AskSlug(question))))
    ensures !AllSpace(question) && IsHit(GetAnswer(s.answers, AskSlug(question))) ==>
              Ask(s, question, apiKey, gateway).response == Answered(s.answers[AskSlug(question)], AskSlug(question))
              && Ask(s, question, apiKey, gateway).state.answers == s.answers
  {
  }

  /** Without an API key, or when the API call fails, the cache is left
      untouched, a non-blank question is registered all the same, and on a
      miss the reply is the missing-key or the API error. */
  lemma AskFailureKeepsCache(s: State, question: string, apiKey: Option<string>, gateway: Gateway)
    requires !HasKey(apiKey) || gateway.Failed?
    ensures Ask(s, question, apiKey, gateway).state.answers == s.answers
    ensures !AllSpace(question) ==> HasSlug(AllQuestions(Ask(s, question, apiKey, gateway).state.questions), AskSlug(question))
    ensures !AllSpace(question) && !IsHit(GetAnswer(s.answers, AskSlug(question))) ==>
              Ask(s, question, apiKey, gateway).response == (if HasKey(apiKey) then GatewayError else MissingKey)
  {
    SaveQuestionRegisters(s.questions, AskPrompt(question));
  }

  /** On a miss with a key, a response caches its text, or the fallback
      text when it has none, under the question's slug. */
  lemma AskStoresAnswer(s: State, question: string, apiKey: Option<string>, text: Option<string>)
    requires !AllSpace(question) && HasKey(apiKey)
    requires !IsHit(GetAnswer(s.answers, AskSlug(question)))
    ensures Ask(s, question, apiKey, Responded(text)).sent == Some(AskPrompt(question))
    ensures Ask(s, question, apiKey, Responded(text)).response == Answered(AnswerText(text, NoAnswerAsk), AskSlug(question))
    ensures Ask(s, question, apiKey, Responded(text)).state.answers ==
            s.answers[AskSlug(question) := if text.Some? && text.value != [] then text.value else NoAnswerAsk]
  {
  }

  /** Asking the same question again after an answer is a cache hit: the
      same reply, no API call, whatever the key and the API would do. */
  lemma AskTwiceIsHit(s: State, question: string, key1: Option<string>, g1: Gateway,
                      key2: Option<string>, g2: Gateway)
    requires Ask(s, question, key1, g1).response.Answered?
    ensures Ask(Ask(s, question, key1, g1).state, question, key2, g2).response == Ask(s, question, key1, g1).response
    ensures Ask(Ask(s, question, key1, g1).state, question, key2, g2).sent == None
    ensures Ask(Ask(s, question, key1, g1).state, question, key2, g2).state == Ask(s, question, key1, g1).state
  {
    var first := Ask(s, question, key1, g1);
    SaveQuestionIdempotent(s.questions, AskPrompt(question));
    assert GetAnswer(first.state.answers, AskSlug(question)) == Some(first.response.answer);
  }

  /** The outcomes of `GET /question/:slug`. */
  datatype PageResponse =
    | Page(title: string, answer: string, description: string, body: string)
    | DecodeFailure   // URIError from `slugToQuestion` escapes the handler: no reply of its own
    | PageError       // 500 `Errore nella generazione della risposta.`

  datatype ShowOutcome = ShowOutcome(state: State, response: PageResponse, sent: Option<string>)

  /** The page for a slug and its answer: the display text as title, the
      answer's first 150 characters as description, and the formatted
      answer as body. */
  function PageFor(question: string, answer: string): (page: PageResponse)
    ensures page.Page? && page.title == question && page.answer == answer
    ensures page.description <= answer
    ensures |page.description| == if |answer| <= DescriptionLength then |answer| else DescriptionLength
    ensures page.body == FormatAnswerText(answer)
  {
    Page(question, answer, answer[..if |answer| <= DescriptionLength then |answer| else DescriptionLength],
         FormatAnswerText(answer))
  }

  /** `GET /question/:slug`: the display text of the slug, then the cached
      answer or, on a miss, the API's answer to that text, cached under the
      slug. No API key is checked on this route, and the registry is never
      touched. */
  function ShowQuestion(s: State, slug: string, gateway: Gateway): (out: ShowOutcome)
    ensures out.state.questions == s.questions
    ensures out.response.DecodeFailure? <==> SlugToQuestion(slug).None?
    ensures out.response.Page? ==>
              out.response.title == SlugToQuestion(slug).value
              && out.response.answer != []
              && out.response.body == FormatAnswerText(out.response.answer)
              && out.response.description <= out.response.answer
    ensures out.sent.Some? ==> out.sent == SlugToQuestion(slug)
    ensures out.state.answers != s.answers ==> out.response.Page? && out.sent.Some?
    ensures gateway.Failed? ==> out.state.answers == s.answers
    ensures SlugToQuestion(slug).Some? && IsHit(GetAnswer(s.answers, slug)) ==>
              out.state == s && out.sent == None && out.response == PageFor(SlugToQuestion(slug).value, s.answers[slug])
    ensures SlugToQuestion(slug).Some? && !IsHit(GetAnswer(s.answers, slug)) ==>
              out.sent == SlugToQuestion(slug) && (gateway.Failed? ==> out.response == PageError)
  {
    var question := SlugToQuestion(slug);
    if question.None? then ShowOutcome(s, DecodeFailure, None)
    else
      var cached := GetAnswer(s.answers, slug);
      if IsHit(cached) then ShowOutcome(s, PageFor(question.value, cached.value), None)
      else match gateway
        case Failed => ShowOutcome(s, PageError, question)
        case Responded(text) =>
          var answer := AnswerText(text, NoAnswerPage);
          ShowOutcome(s.(answers := SaveAnswer(s.answers, slug, answer)), PageFor(question.value, answer), question)
  }

  /** On a miss the page route asks the API with the display text and
      caches its text, or `Nessuna risposta.` when it has none. */
  lemma ShowMissStoresAnswer(s: State, slug: string, text: Option<string>)
    requires SlugToQuestion(slug).Some? && !IsHit(GetAnswer(s.answers, slug))
    ensures ShowQuestion(s, slug, Responded(text)).sent == SlugToQuestion(slug)
    ensures ShowQuestion(s, slug, Responded(text)).response == PageFor(SlugToQuestion(slug).value, AnswerText(text, NoAnswerPage))
    ensures ShowQuestion(s, slug, Responded(text)).state.answers ==
            s.answers[slug := if text.Some? && text.value != [] then text.value else NoAnswerPage]
  {
  }

  /** After `/ask` answers, the question's page is served from the cache
      with that answer and the slug's display text as title. */
  lemma AskThenShow(s: State, question: string, apiKey: Option<string>, g1: Gateway, g2: Gateway)
    requires Ask(s, question, apiKey, g1).response.Answered?
    ensures ShowQuestion(Ask(s, question, apiKey, g1).state, AskSlug(question), g2) ==
            ShowOutcome(Ask(s, question, apiKey, g1).state,
                        PageFor(ReplaceAll(AskSlug(question), '-', " "), Ask(s, question, apiKey, g1).response.answer),
                        None)
  {
    var first := Ask(s, question, apiKey, g1);
    SlugToQuestionOfSlug(AskSlug(question));
    assert GetAnswer(first.state.answers, AskSlug(question)) == Some(first.response.answer);
  }

  /** Serving a page twice: the second time is a cache hit with the same
      page and no API call. */
  lemma ShowTwiceIsHit(s: State, slug: string, g1: Gateway, g2: Gateway)
    requires ShowQuestion(s, slug, g1).response.Page?
    ensures ShowQuestion(ShowQuestion(s, slug, g1).state, slug, g2) ==
            ShowOutcome(ShowQuestion(s, slug, g1).state, ShowQuestion(s, slug, g1).response, None)
  {
    var first := ShowQuestion(s, slug, g1);
    assert GetAnswer(first.state.answers, slug) == Some(first.response.answer);
  }

  /** The page title is the decoded slug as it is: markup written in the
      URL reaches the page's `<title>` and `<h1>` unescaped. */
  lemma PageTitleIsRaw(s: State, slug: string, gateway: Gateway)
    requires '%' !in slug && '-' !in slug
    ensures ShowQuestion(s, slug, gateway).response.Page? ==> ShowQuestion(s, slug, gateway).response.title == slug
  {
  }

  /** The invariant the handlers keep: registry slugs unique and each the
      slug of its question, and no empty answer cached. */
  predicate Good(s: State) {
    && UniqueSlugs(AllQuestions(s.questions))
    && WellFormed(AllQuestions(s.questions))
    && forall slug :: slug in s.answers ==> s.answers[slug] != []
  }

  /** `/ask` keeps the invariant. */
  lemma AskKeepsGood(s: State, question: string, apiKey: Option<string>, gateway: Gateway)
    requires Good(s)
    ensures Good(Ask(s, question, apiKey, gateway).state)
  {
    SaveQuestionKeepsInvariants(s.questions, AskPrompt(question));
  }

  /** `/question/:slug` keeps the invariant. */
  lemma ShowKeepsGood(s: State, slug: string, gateway: Gateway)
    requires Good(s)
    ensures Good(ShowQuestion(s, slug, gateway).state)
  {
  }

  /** `GET /sitemap.xml`: the `<loc>` of every registered question, in
      registry order; under the invariant each is the production URL with
      the slug verbatim, and no page is listed twice. */
  function SitemapPage(s: State): (locs: seq<string>)
    ensures |locs| == |AllQuestions(s.questions)|
    ensures forall i :: 0 <= i < |locs| ==> locs[i] == Loc(AllQuestions(s.questions)[i].slug)
    ensures Good(s) ==> forall i :: 0 <= i < |locs| ==>
              locs[i] == ProdUrl + "/question/" + AllQuestions(s.questions)[i].slug
    ensures Good(s) ==> forall i, j :: 0 <= i < j < |locs| ==> locs[i] != locs[j]
  {
    var qs := AllQuestions(s.questions);
    if Good(s) then
      SitemapLocsOfRegistry(qs);
      SitemapLocsDistinct(qs);
      SitemapLocs(qs)
    else SitemapLocs(qs)
  }

  /** Once `/ask` has taken a question, whatever happens after the
      registration step, the sitemap lists its page. */
  lemma AskListsPage(s: State, question: string, apiKey: Option<string>, gateway: Gateway)
    requires !AllSpace(question)
    ensures Loc(AskSlug(question)) in SitemapPage(Ask(s, question, apiKey, gateway).state)
  {
    var qs := AllQuestions(Ask(s, question, apiKey, gateway).state.questions);
    SaveQuestionRegisters(s.questions, AskPrompt(question));
    var i :| 0 <= i < |qs| && qs[i].slug == AskSlug(question);
    assert SitemapPage(Ask(s, question, apiKey, gateway).state)[i] == Loc(AskSlug(question));
  }
}

=== FILE: sitemap.dfy ===
/** The `/sitemap.xml` route: one `<loc>` per registered question, its slug
    passed through `escapeXml`. */
module Sitemap {
  import opened Text
  import opened Slug
  import opened Registry

  const ProdUrl := "https://intelliask.netlify.app"

  /** `escapeXml`: `&`, then `<`, then `>` replaced by their entities, one
      global replace after another. */
  function EscapeXml(s: string): (r: string)
    ensures '<' !in r && '>' !in r
    ensures '&' !in s && '<' !in s && '>' !in s ==> r == s
  {
    var amp := ReplaceAll(s, '&', "&amp;");
    var lt := ReplaceAll(amp, '<', "&lt;");
    ReplaceAllChars(amp, '<', "&lt;");
    ReplaceAllChars(lt, '>', "&gt;");
    ReplaceAll(lt, '>', "&gt;")
  }

  /** The entity for one character, as a single-pass escaper would write it. */
  function EscapeChar(c: char): string {
    if c == '&' then "&amp;"
    else if c == '<' then "&lt;"
    else if c == '>' then "&gt;"
    else [c]
  }

  /** The reference escaper: every character replaced by its entity in one pass. */
  function EscapeEach(s: string): string {
    if s == [] then [] else EscapeChar(s[0]) + EscapeEach(s[1..])
  }

  /** Escaping distributes over concatenation. */
  lemma EscapeXmlConcat(a: string, b: string)
    ensures EscapeXml(a + b) == EscapeXml(a) + EscapeXml(b)
  {
    var a1 := ReplaceAll(a, '&', "&amp;");
    var b1 := ReplaceAll(b, '&', "&amp;");
    ReplaceAllConcat(a, b, '&', "&amp;");
    var a2 := ReplaceAll(a1, '<', "&lt;");
    var b2 := ReplaceAll(b1, '<', "&lt;");
    ReplaceAllConcat(a1, b1, '<', "&lt;");
    ReplaceAllConcat(a2, b2, '>', "&gt;");
  }

  /** On one character the three passes give that character's entity: the
      `&` of `&lt;` and `&gt;` is not escaped again, because `&` goes first. */
  lemma EscapeXmlChar(c: char)
    ensures EscapeXml([c]) == EscapeChar(c)
  {
    var amp := ReplaceAll([c], '&', "&amp;");
    if c == '&' {
      assert amp == "&amp;" + ReplaceAll([], '&', "&amp;");
      assert '<' !in amp && '>' !in amp;
    } else if c == '<' {
      assert amp == [c];
      assert ReplaceAll(amp, '<', "&lt;") == "&lt;" + ReplaceAll([], '<', "&lt;");
    } else if c == '>' {
      assert amp == [c];
      assert ReplaceAll(amp, '<', "&lt;") == [c];
      assert ReplaceAll([c], '>', "&gt;") == "&gt;" + ReplaceAll([], '>', "&gt;");
    }
  }

  /** The three chained replaces equal the one-pass escaper. */
  lemma {:induction false} EscapeXmlIsPerChar(s: string)
    ensures EscapeXml(s) == EscapeEach(s)
  {
    if s != [] {
      var c, rest := s[0], s[1..];
      assert s == [c] + rest;
      EscapeXmlIsPerChar(rest);
      EscapeXmlChar(c);
      EscapeXmlConcat([c], rest);
    }
  }

  /** The markup characters `escapeXml` rewrites. */
  predicate IsMarkup(c: char) {
    c == '&' || c == '<' || c == '>'
  }

  /** Escaping lengthens the text by at least one character per markup
      character, and leaves it as it is when there is none. */
  lemma {:induction false} EscapeEachLength(s: string)
    ensures |EscapeEach(s)| >= |s|
    ensures (exists i :: 0 <= i < |s| && IsMarkup(s[i])) ==> |EscapeEach(s)| > |s|
    ensures (forall i :: 0 <= i < |s| ==> !IsMarkup(s[i])) ==> EscapeEach(s) == s
  {
    if s != [] {
      var c, rest := s[0], s[1..];
      EscapeEachLength(rest);
      assert EscapeEach(s) == EscapeChar(c) + EscapeEach(rest);
      if i :| 0 <= i < |s| && IsMarkup(s[i]) {
        if i > 0 {
          assert IsMarkup(rest[i - 1]);
        }
      }
      if forall i :: 0 <= i < |s| ==> !IsMarkup(s[i]) {
        assert forall i :: 0 <= i < |rest| ==> rest[i] == s[i + 1];
        assert s == [c] + rest;
      }
    }
  }

  /** `escapeXml` changes a text exactly when the text holds `&`, `<` or `>`. */
  lemma EscapeXmlIdentity(s: string)
    ensures EscapeXml(s) == s <==> forall i :: 0 <= i < |s| ==> !IsMarkup(s[i])
  {
    EscapeXmlIsPerChar(s);
    EscapeEachLength(s);
  }

  /** A slug holds no markup, so the sitemap prints it unchanged. */
  lemma EscapeXmlOfSlug(slug: string)
    requires IsSlugText(slug)
    ensures EscapeXml(slug) == slug
  {
    assert '&' !in slug && '<' !in slug && '>' !in slug;
  }

  /** The inverse of `escapeXml`: each of the three entities read back as
      its character. */
  function Unescape(s: string): string
  {
    if s == [] then []
    else if StartsWith(s, "&amp;") then "&" + Unescape(s[5..])
    else if StartsWith(s, "&lt;") then "<" + Unescape(s[4..])
    else if StartsWith(s, "&gt;") then ">" + Unescape(s[4..])
    else [s[0]] + Unescape(s[1..])
  }

  /** A text that differs from `prefix` at some index does not start with it. */
  lemma DiffersAt(s: string, prefix: string, k: nat)
    requires k < |s| && k < |prefix| && s[k] != prefix[k]
    ensures !StartsWith(s, prefix)
  {
    if |prefix| <= |s| {
      assert s[..|prefix|][k] == s[k];
    }
  }

  /** Reading back one escaped character. */
  lemma UnescapeChar(c: char, rest: string)
    ensures Unescape(EscapeChar(c) + rest) == [c] + Unescape(rest)
  {
    if c == '&' {
      UnescapeAmp(rest);
    } else if c == '<' {
      UnescapeLt(rest);
    } else if c == '>' {
      UnescapeGt(rest);
    } else {
      UnescapeOther(c, rest);
    }
  }

  lemma UnescapeAmp(rest: string)
    ensures Unescape("&amp;" + rest) == "&" + Unescape(rest)
  {
    var e := "&amp;" + rest;
    assert e[..5] == "&amp;" && e[5..] == rest;
  }

  lemma UnescapeLt(rest: string)
    ensures Unescape("&lt;" + rest) == "<" + Unescape(rest)
  {
    var e := "&lt;" + rest;
    assert e[..4] == "&lt;" && e[4..] == rest;
    DiffersAt(e, "&amp;", 1);
  }

  lemma UnescapeGt(rest: string)
    ensures Unescape("&gt;" + rest) == ">" + Unescape(rest)
  {
    var e := "&gt;" + rest;
    assert e[..4] == "&gt;" && e[4..] == rest;
    DiffersAt(e, "&amp;", 1);
    DiffersAt(e, "&lt;", 1);
  }

  lemma UnescapeOther(c: char, rest: string)
    requires !IsMarkup(c)
    ensures Unescape([c] + rest) == [c] + Unescape(rest)
  {
    var e := [c] + rest;
    DiffersAt(e, "&amp;", 0);
    DiffersAt(e, "&lt;", 0);
    DiffersAt(e, "&gt;", 0);
    assert e[1..] == rest;
  }

  /** Unescaping an escaped text gives the text back, so `escapeXml` loses
      nothing. */
  lemma {:induction false} UnescapeEscape(s: string)
    ensures Unescape(EscapeXml(s)) == s
  {
    EscapeXmlIsPerChar(s);
    UnescapeEscapeEach(s);
  }

  lemma {:induction false} UnescapeEscapeEach(s: string)
    ensures Unescape(EscapeEach(s)) == s
  {
    if s != [] {
      UnescapeEscapeEach(s[1..]);
      UnescapeChar(s[0], EscapeEach(s[1..]));
      assert [s[0]] + s[1..] == s;
    }
  }

  /** Different texts escape differently. */
  lemma EscapeXmlInjective(a: string, b: string)
    requires a != b
    ensures EscapeXml(a) != EscapeXml(b)
  {
    UnescapeEscape(a);
    UnescapeEscape(b);
  }

  /** The `<loc>` of one question page. */
  function Loc(slug: string): string {
    ProdUrl + "/question/" + EscapeXml(slug)
  }

  /** The `<loc>` values of the question pages, in registry order. */
  function SitemapLocs(qs: seq<Question>): (locs: seq<string>)
    ensures |locs| == |qs|
    ensures forall i :: 0 <= i < |qs| ==> locs[i] == Loc(qs[i].slug)
  {
    if qs == [] then [] else [Loc(qs[0].slug)] + SitemapLocs(qs[1..])
  }

  /** For a registry whose slugs come from `questionToSlug`, each page's
      `<loc>` is the production URL with the slug verbatim. */
  lemma SitemapLocsOfRegistry(qs: seq<Question>)
    requires WellFormed(qs)
    ensures forall i :: 0 <= i < |qs| ==> SitemapLocs(qs)[i] == ProdUrl + "/question/" + qs[i].slug
  {
    forall i | 0 <= i < |qs|
      ensures SitemapLocs(qs)[i] == ProdUrl + "/question/" + qs[i].slug
    {
      EscapeXmlOfSlug(qs[i].slug);
    }
  }

  /** A registry with unique slugs lists each page once. */
  lemma SitemapLocsDistinct(qs: seq<Question>)
    requires UniqueSlugs(qs)
    ensures forall i, j :: 0 <= i < j < |qs| ==> SitemapLocs(qs)[i] != SitemapLocs(qs)[j]
  {
    var locs := SitemapLocs(qs);
    var prefix := ProdUrl + "/question/";
    forall i, j | 0 <= i < j < |qs|
      ensures locs[i] != locs[j]
    {
      EscapeXmlInjective(qs[i].slug, qs[j].slug);
      assert locs[i][|prefix|..] == EscapeXml(qs[i].slug);
      assert locs[j][|prefix|..] == EscapeXml(qs[j].slug);
    }
  }
}

=== FILE: slug.dfy ===
/** The slug codec: `questionToSlug` turns a free-text question into the
    URL-safe key under which it is registered and its answer cached, and
    `slugToQuestion` turns a slug back into display text. */
module Slug {
  import opened Text
  import Uri

  /** The characters a slug is made of: `[a-z0-9_-]`. */
  predicate IsSlugChar(c: char) {
    ('a' <= c <= 'z') || ('0' <= c <= '9') || c == '_' || c == '-'
  }

  predicate IsSlugText(s: string) {
    forall i :: 0 <= i < |s| ==> IsSlugChar(s[i])
  }

  /** No two hyphens in a row: the slugs that a whitespace run cannot produce. */
  predicate NoDoubleHyphen(s: string) {
    forall i :: 0 <= i < |s| - 1 ==> !(s[i] == '-' && s[i + 1] == '-')
  }

  /** Characters whose lower case, as far as this model knows it, is themselves. */
  predicate IsLowerFixed(c: char) {
    !IsUpperAscii(c) && c != '\U{212A}' && c != '\U{0130}'
  }

  /** `toLowerCase` of one character, exact wherever the slug can tell the
      difference: ASCII capitals, U+212A KELVIN SIGN (which becomes `k`) and
      U+0130 (which becomes `i` followed by U+0307). Any other character is
      kept as it is; for a non-ASCII one that is harmless, because the next
      step deletes it whatever its case. */
  function LowerChar(c: char): string
  {
    if IsUpperAscii(c) then [(c as int + 32) as char]
    else if c == '\U{212A}' then ['k']
    else if c == '\U{0130}' then ['i', '\U{0307}']
    else [c]
  }

  /** `question.toLowerCase()`. */
  function ToLower(s: string): string
  {
    if s == [] then [] else LowerChar(s[0]) + ToLower(s[1..])
  }

  /** No ASCII capital survives lower-casing. */
  lemma {:induction false} ToLowerHasNoCapital(s: string)
    ensures forall i :: 0 <= i < |ToLower(s)| ==> !IsUpperAscii(ToLower(s)[i])
  {
    if s != [] {
      ToLowerHasNoCapital(s[1..]);
      var head := LowerChar(s[0]);
      var r := ToLower(s);
      forall i | 0 <= i < |r|
        ensures !IsUpperAscii(r[i])
      {
        if i >= |head| {
          assert r[i] == ToLower(s[1..])[i - |head|];
        }
      }
    }
  }

  /** Lower-casing leaves alone a text with nothing to lower. */
  lemma {:induction false} ToLowerFixed(s: string)
    requires forall i :: 0 <= i < |s| ==> IsLowerFixed(s[i])
    ensures ToLower(s) == s
  {
    if s != [] {
      ToLowerFixed(s[1..]);
      assert [s[0]] + s[1..] == s;
    }
  }

  /** The characters `[^\w\s-]` does not match. */
  predicate IsKept(c: char) {
    IsWordChar(c) || IsSpace(c) || c == '-'
  }

  /** `.replace(/[^\w\s-]/g, '')`: drops every character outside `[\w\s-]`. */
  function StripPunctuation(s: string): (r: string)
    ensures |r| <= |s|
  {
    if s == [] then []
    else (if IsKept(s[0]) then [s[0]] else []) + StripPunctuation(s[1..])
  }

  /** What survives the strip is exactly the kept characters of the input. */
  lemma {:induction false} StripPunctuationKeeps(s: string)
    ensures forall c :: c in StripPunctuation(s) <==> c in s && IsKept(c)
  {
    if s != [] {
      StripPunctuationKeeps(s[1..]);
      assert s == [s[0]] + s[1..];
    }
  }

  /** A text of kept characters passes the strip unchanged. */
  lemma {:induction false} StripPunctuationFixed(s: string)
    requires forall i :: 0 <= i < |s| ==> IsKept(s[i])
    ensures StripPunctuation(s) == s
  {
    if s != [] {
      StripPunctuationFixed(s[1..]);
      assert [s[0]] + s[1..] == s;
    }
  }

  /** `.replace(/\s+/g, '-')` from index `i` on: a whitespace character
      and the run of whitespace after it become one hyphen; any other
      character is copied. */
  function HyphenateFrom(s: string, i: nat): (r: string)
    requires i <= |s|
    ensures |r| <= |s| - i
    decreases |s| - i
  {
    if i == |s| then []
    else if IsSpace(s[i]) then ['-'] + HyphenateFrom(s, SkipSpaces(s, i + 1))
    else [s[i]] + HyphenateFrom(s, i + 1)
  }

  /** `.replace(/\s+/g, '-')`: every maximal run of whitespace becomes one hyphen. */
  function Hyphenate(s: string): string {
    HyphenateFrom(s, 0)
  }

  /** Hyphenation emits hyphens and non-whitespace characters of the input. */
  lemma {:induction false} HyphenateChars(s: string, i: nat)
    requires i <= |s|
    ensures forall c :: c in HyphenateFrom(s, i) ==> c == '-' || (c in s && !IsSpace(c))
    decreases |s| - i
  {
    if i < |s| {
      if IsSpace(s[i]) {
        HyphenateChars(s, SkipSpaces(s, i + 1));
      } else {
        HyphenateChars(s, i + 1);
      }
    }
  }

  /** Hyphenation leaves no whitespace, and every other character it emits
      besides the hyphens comes from the input. */
  lemma HyphenateOutput(s: string)
    ensures NoSpace(Hyphenate(s))
    ensures forall c :: c in Hyphenate(s) ==> c == '-' || (c in s && !IsSpace(c))
  {
    HyphenateChars(s, 0);
    var r := Hyphenate(s);
    forall i | 0 <= i < |r|
      ensures !IsSpace(r[i])
    {
      assert r[i] in r;
    }
  }

  /** A stretch `s[i..j]` without whitespace is copied as it is. */
  lemma {:induction false} HyphenateCopies(s: string, i: nat, j: nat)
    requires i <= j <= |s|
    requires forall k :: i <= k < j ==> !IsSpace(s[k])
    ensures HyphenateFrom(s, i) == s[i..j] + HyphenateFrom(s, j)
    decreases j - i
  {
    if i < j {
      var rest := HyphenateFrom(s, j);
      HyphenateCopies(s, i + 1, j);
      assert HyphenateFrom(s, i) == [s[i]] + (s[i + 1..j] + rest) by {
        assert !IsSpace(s[i]);
      }
      assert [s[i]] + (s[i + 1..j] + rest) == ([s[i]] + s[i + 1..j]) + rest;
      assert [s[i]] + s[i + 1..j] == s[i..j];
    }
  }

  /** A text without whitespace is its own hyphenation. */
  lemma HyphenateFixed(s: string)
    requires NoSpace(s)
    ensures Hyphenate(s) == s
  {
    HyphenateCopies(s, 0, |s|);
    assert s[0..|s|] == s;
  }

  /** `questionToSlug`: lower-case, strip punctuation, hyphenate whitespace
      runs, trim. The slug uses only `[a-z0-9_-]`. */
  function QuestionToSlug(question: string): (slug: string)
    ensures IsSlugText(slug)
    ensures |slug| <= |ToLower(question)|
  {
    var hyphenated := Hyphenate(StripPunctuation(ToLower(question)));
    HyphenatedIsSlugText(question);
    Trim(hyphenated)
  }

  lemma HyphenatedIsSlugText(question: string)
    ensures IsSlugText(Hyphenate(StripPunctuation(ToLower(question))))
    ensures NoSpace(Hyphenate(StripPunctuation(ToLower(question))))
  {
    var lowered := ToLower(question);
    var stripped := StripPunctuation(lowered);
    var hyphenated := Hyphenate(stripped);
    ToLowerHasNoCapital(question);
    StripPunctuationKeeps(lowered);
    HyphenateOutput(stripped);
    forall i | 0 <= i < |hyphenated|
      ensures IsSlugChar(hyphenated[i])
    {
      var c := hyphenated[i];
      assert c in hyphenated;
      if c != '-' {
        assert c in stripped && !IsSpace(c);
        assert c in lowered && IsKept(c);
        var j :| 0 <= j < |lowered| && lowered[j] == c;
        assert !IsUpperAscii(lowered[j]);
      }
    }
  }

  /** `slugToQuestion`: hyphens become spaces, then the text is
      percent-decoded; a malformed escape raises URIError (`None`). */
  function SlugToQuestion(slug: string): (question: Option<string>)
    ensures '%' !in slug ==> question == Some(ReplaceAll(slug, '-', " "))
  {
    ReplaceAllChars(slug, '-', " ");
    Uri.DecodeUriComponent(ReplaceAll(slug, '-', " "))
  }

  /** A string already in slug form is its own slug. */
  lemma SlugTextIsFixed(s: string)
    requires IsSlugText(s)
    ensures QuestionToSlug(s) == s
  {
    ToLowerFixed(s);
    StripPunctuationFixed(s);
    HyphenateFixed(s);
  }

  /** Slugging is idempotent. */
  lemma QuestionToSlugIdempotent(question: string)
    ensures QuestionToSlug(QuestionToSlug(question)) == QuestionToSlug(question)
  {
    SlugTextIsFixed(QuestionToSlug(question));
  }

  /** Display text for a slug produced by `questionToSlug` is the slug with
      each hyphen read as a space: such a slug holds no `%`. */
  lemma SlugToQuestionOfSlug(slug: string)
    requires IsSlugText(slug)
    ensures SlugToQuestion(slug) == Some(ReplaceAll(slug, '-', " "))
  {
    assert '%' !in slug;
  }

  /** Two adjacent whitespace characters at or after `p` make hyphenation
      from `p` shrink the text. */
  lemma {:induction false} HyphenateShrinks(t: string, p: nat, i: nat)
    requires p <= i && i + 1 < |t| && IsSpace(t[i]) && IsSpace(t[i + 1])
    ensures |HyphenateFrom(t, p)| < |t| - p
    decreases |t| - p
  {
    if IsSpace(t[p]) {
      var n := SkipSpaces(t, p + 1);
      if p < i && n <= i {
        HyphenateShrinks(t, n, i);
      } else {
        assert n >= p + 2;
      }
    } else {
      HyphenateShrinks(t, p + 1, i);
    }
  }

  /** Hyphenating the spaced form `t` of a slug with no double hyphen gives
      the slug back from every index on: each space, read back from a
      hyphen, is followed by a non-space. */
  lemma {:induction false} HyphenateSpacedRestores(s: string, t: string, p: nat)
    requires IsSlugText(s) && NoDoubleHyphen(s)
    requires |t| == |s| && forall k :: 0 <= k < |s| ==> t[k] == if s[k] == '-' then ' ' else s[k]
    requires p <= |s|
    ensures HyphenateFrom(t, p) == s[p..]
    decreases |s| - p
  {
    if p < |s| {
      assert IsSpace(t[p]) <==> s[p] == '-';
      if IsSpace(t[p]) {
        assert p + 1 == |s| || !IsSpace(t[p + 1]);
        assert SkipSpaces(t, p + 1) == p + 1;
      }
      HyphenateSpacedRestores(s, t, p + 1);
      assert s[p..] == [s[p]] + s[p + 1..];
    }
  }

  /** Reading hyphens as spaces and hyphenating again gives the slug back
      exactly when no two hyphens are adjacent. */
  lemma HyphenateSpaced(s: string)
    requires IsSlugText(s)
    ensures Hyphenate(ReplaceAll(s, '-', " ")) == s <==> NoDoubleHyphen(s)
  {
    var t := ReplaceAll(s, '-', " ");
    forall k | 0 <= k < |s|
      ensures t[k] == if s[k] == '-' then ' ' else s[k]
    {
      ReplaceAllAt(s, '-', ' ', k);
    }
    if NoDoubleHyphen(s) {
      HyphenateSpacedRestores(s, t, 0);
      assert s[0..] == s;
    } else {
      var i :| 0 <= i < |s| - 1 && s[i] == '-' && s[i + 1] == '-';
      HyphenateShrinks(t, 0, i);
    }
  }

  /** Re-slugging the display text of a slug returns that slug exactly when
      the slug has no two adjacent hyphens. */
  lemma ReslugRoundTrip(slug: string)
    requires IsSlugText(slug)
    ensures SlugToQuestion(slug).Some?
    ensures QuestionToSlug(SlugToQuestion(slug).value) == slug <==> NoDoubleHyphen(slug)
  {
    SlugToQuestionOfSlug(slug);
    var text := ReplaceAll(slug, '-', " ");
    ReplaceAllChars(slug, '-', " ");
    assert forall c :: c in text ==> IsSlugChar(c) || c == ' ';
    assert forall i :: 0 <= i < |text| ==> IsLowerFixed(text[i]) && IsKept(text[i]) by {
      forall i | 0 <= i < |text|
        ensures IsLowerFixed(text[i]) && IsKept(text[i])
      {
        assert text[i] in text;
      }
    }
    ToLowerFixed(text);
    StripPunctuationFixed(text);
    HyphenateOutput(text);
    HyphenateSpaced(slug);
  }

  lemma {:induction false} ToLowerConcat(a: string, b: string)
    ensures ToLower(a + b) == ToLower(a) + ToLower(b)
  {
    if a == [] {
      assert a + b == b;
    } else {
      var head := LowerChar(a[0]);
      assert (a + b)[0] == a[0] && (a + b)[1..] == a[1..] + b;
      assert ToLower(a + b) == head + ToLower(a[1..] + b);
      ToLowerConcat(a[1..], b);
      assert head + (ToLower(a[1..]) + ToLower(b)) == (head + ToLower(a[1..])) + ToLower(b);
    }
  }

  lemma {:induction false} StripPunctuationConcat(a: string, b: string)
    ensures StripPunctuation(a + b) == StripPunctuation(a) + StripPunctuation(b)
  {
    if a == [] {
      assert a + b == b;
    } else {
      var head := if IsKept(a[0]) then [a[0]] else [];
      assert (a + b)[0] == a[0] && (a + b)[1..] == a[1..] + b;
      assert StripPunctuation(a + b) == head + StripPunctuation(a[1..] + b);
      StripPunctuationConcat(a[1..], b);
      assert head + (StripPunctuation(a[1..]) + StripPunctuation(b))
          == (head + StripPunctuation(a[1..])) + StripPunctuation(b);
    }
  }

  /** A non-empty word of lower-case ASCII letters. */
  predicate IsLowerWord(w: string) {
    |w| > 0 && forall i :: 0 <= i < |w| ==> 'a' <= w[i] <= 'z'
  }

  /** The word with its first letter in upper case. */
  function Capitalize(w: string): string
    requires IsLowerWord(w)
  {
    [(w[0] as int - 32) as char] + w[1..]
  }

  lemma LowerWordIsFixed(w: string)
    requires IsLowerWord(w)
    ensures ToLower(w) == w && StripPunctuation(w) == w && NoSpace(w)
  {
    ToLowerFixed(w);
    StripPunctuationFixed(w);
  }

  lemma ToLowerCapitalize(w: string)
    requires IsLowerWord(w)
    ensures ToLower(Capitalize(w)) == w
  {
    var head := [(w[0] as int - 32) as char];
    ToLowerConcat(head, w[1..]);
    assert IsLowerWord(w[1..]) || w[1..] == [];
    if w[1..] != [] {
      LowerWordIsFixed(w[1..]);
    }
    assert w == [w[0]] + w[1..];
  }

  lemma TwoWordsPassLowerAndStrip(a: string, b: string)
    requires IsLowerWord(a) && IsLowerWord(b)
    ensures StripPunctuation(ToLower(a + " " + b)) == a + " " + b
  {
    var spaced := a + " " + b;
    forall i | 0 <= i < |spaced|
      ensures IsLowerFixed(spaced[i]) && IsKept(spaced[i])
    {
      if i < |a| {
        assert spaced[i] == a[i];
      } else if i > |a| {
        assert spaced[i] == b[i - |a| - 1];
      }
    }
    ToLowerFixed(spaced);
    StripPunctuationFixed(spaced);
  }

  lemma HyphenateTwoWords(a: string, b: string)
    requires IsLowerWord(a) && IsLowerWord(b)
    ensures Hyphenate(a + " " + b) == a + "-" + b
  {
    var t := a + " " + b;
    var n := |a|;
    assert forall k :: 0 <= k < n ==> t[k] == a[k];
    assert forall k :: n < k < |t| ==> t[k] == b[k - n - 1];
    HyphenateCopies(t, 0, n);
    HyphenateCopies(t, n + 1, |t|);
    assert t[0..n] == a && t[n + 1..|t|] == b;
    assert HyphenateFrom(t, n + 1) == b by {
      assert HyphenateFrom(t, |t|) == [];
    }
    assert HyphenateFrom(t, n) == "-" + b by {
      assert IsSpace(t[n]) && SkipSpaces(t, n + 1) == n + 1;
    }
    assert Hyphenate(t) == a + ("-" + b);
    assert a + ("-" + b) == a + "-" + b;
  }

  lemma HyphenatedWordsHaveNoSpace(a: string, b: string)
    requires IsLowerWord(a) && IsLowerWord(b)
    ensures NoSpace(a + "-" + b)
  {
    var joined := a + "-" + b;
    forall i | 0 <= i < |joined|
      ensures !IsSpace(joined[i])
    {
      if i < |a| {
        assert joined[i] == a[i];
      } else if i > |a| {
        assert joined[i] == b[i - |a| - 1];
      }
    }
  }

  /** Two words joined by a space are slugged to the words joined by a hyphen. */
  lemma SlugOfTwoWords(a: string, b: string)
    requires IsLowerWord(a) && IsLowerWord(b)
    ensures QuestionToSlug(a + " " + b) == a + "-" + b
  {
    TwoWordsPassLowerAndStrip(a, b);
    HyphenateTwoWords(a, b);
    HyphenatedWordsHaveNoSpace(a, b);
  }

  lemma LowerCapitalizedPair(a: string, b: string)
    requires IsLowerWord(a) && IsLowerWord(b)
    ensures ToLower(Capitalize(a) + ", " + Capitalize(b) + "!") == a + ", " + b + "!"
  {
    var A, B := Capitalize(a), Capitalize(b);
    ToLowerConcat(A + ", " + B, "!");
    ToLowerConcat(A + ", ", B);
    ToLowerConcat(A, ", ");
    ToLowerCapitalize(a);
    ToLowerCapitalize(b);
    assert ToLower(", ") == ", ";
    assert ToLower("!") == "!";
  }

  lemma StripPunctuatedPair(a: string, b: string)
    requires IsLowerWord(a) && IsLowerWord(b)
    ensures StripPunctuation(a + ", " + b + "!") == a + " " + b
  {
    StripPunctuationConcat(a + ", " + b, "!");
    StripPunctuationConcat(a + ", ", b);
    StripPunctuationConcat(a, ", ");
    LowerWordIsFixed(a);
    LowerWordIsFixed(b);
    assert StripPunctuation(", ") == " ";
    assert StripPunctuation("!") == "";
    assert a + " " + b + "" == a + " " + b;
  }

  /** Case and punctuation do not reach the slug: the slug of
      `"Hello, World!"` is that of `"hello world"`, namely `"hello-world"`,
      and the same holds for any two lower-case words in place of these. */
  lemma SlugCollision(a: string, b: string)
    requires IsLowerWord(a) && IsLowerWord(b)
    ensures QuestionToSlug(Capitalize(a) + ", " + Capitalize(b) + "!") == a + "-" + b
    ensures QuestionToSlug(a + " " + b) == a + "-" + b
  {
    SlugOfTwoWords(a, b);
    LowerCapitalizedPair(a, b);
    StripPunctuatedPair(a, b);
    TwoWordsPassLowerAndStrip(a, b);
  }

  /** A text of characters outside `[\w\s-]` strips to nothing. */
  lemma {:induction false} StripPunctuationDropsAll(s: string)
    requires forall i :: 0 <= i < |s| ==> !IsKept(s[i])
    ensures StripPunctuation(s) == []
  {
    if s != [] {
      StripPunctuationDropsAll(s[1..]);
    }
  }

  /** Lowering and stripping a question with one such character removed
      gives the same text. */
  lemma StripLowerDropsChar(a: string, c: char, b: string)
    requires forall i :: 0 <= i < |LowerChar(c)| ==> !IsKept(LowerChar(c)[i])
    ensures StripPunctuation(ToLower(a + [c] + b)) == StripPunctuation(ToLower(a + b))
  {
    var la, lc, lb := ToLower(a), LowerChar(c), ToLower(b);
    assert ToLower(a + [c] + b) == la + lc + lb by {
      ToLowerConcat(a + [c], b);
      ToLowerConcat(a, [c]);
      assert ToLower([c]) == lc;
    }
    assert ToLower(a + b) == la + lb by {
      ToLowerConcat(a, b);
    }
    StripPunctuationDropsAll(lc);
    StripPunctuationConcat(la + lc, lb);
    StripPunctuationConcat(la, lc);
    StripPunctuationConcat(la, lb);
    assert StripPunctuation(la) + [] == StripPunctuation(la);
  }

  /** A character that lower-cases to punctuation does not reach the slug:
      dropping it anywhere in a question leaves the slug as it was. */
  lemma SlugIgnoresPunctuation(a: string, c: char, b: string)
    requires forall i :: 0 <= i < |LowerChar(c)| ==> !IsKept(LowerChar(c)[i])
    ensures QuestionToSlug(a + [c] + b) == QuestionToSlug(a + b)
  {
    StripLowerDropsChar(a, c, b);
  }

  /** Case does not reach the slug: a capital ASCII letter anywhere in a
      question gives the same slug as its lower-case letter. */
  lemma SlugIgnoresCase(a: string, c: char, b: string)
    requires 'a' <= c <= 'z'
    ensures QuestionToSlug(a + [(c as int - 32) as char] + b) == QuestionToSlug(a + [c] + b)
  {
    var C := (c as int - 32) as char;
    ToLowerConcat(a + [C], b);
    ToLowerConcat(a, [C]);
    ToLowerConcat(a + [c], b);
    ToLowerConcat(a, [c]);
    assert ToLower([C]) == LowerChar(C) == [c];
    assert ToLower([c]) == LowerChar(c) == [c];
    assert ToLower(a + [C] + b) == ToLower(a + [c] + b);
  }
}

=== FILE: text.dfy ===
/** Character classes and string helpers shared by the whole model.
    A JavaScript string is modelled as a `seq<char>`, one character per Unicode
    scalar value; a character above U+FFFF is one `char` here where
    JavaScript counts two code units. */
module Text {

  /** The result of a lookup that may find nothing (JavaScript's `null`). */
  datatype Option<+T> = None | Some(value: T)

  /** ECMAScript WhiteSpace and LineTerminator: the characters `\s` matches
      and `String.prototype.trim` removes. */
  predicate IsSpace(c: char) {
    || c == '\t' || c == '\n' || c == '\U{000B}' || c == '\U{000C}' || c == '\r'
    || c == ' ' || c == '\U{00A0}' || c == '\U{1680}'
    || ('\U{2000}' <= c <= '\U{200A}')
    || c == '\U{2028}' || c == '\U{2029}' || c == '\U{202F}' || c == '\U{205F}'
    || c == '\U{3000}' || c == '\U{FEFF}'
  }

  /** The characters a regular-expression `.` does not match (no `s` flag). */
  predicate IsLineTerminator(c: char) {
    c == '\n' || c == '\r' || c == '\U{2028}' || c == '\U{2029}'
  }

  /** `\w` without the `u` flag: ASCII letters, digits and underscore. */
  predicate IsWordChar(c: char) {
    ('a' <= c <= 'z') || ('A' <= c <= 'Z') || ('0' <= c <= '9') || c == '_'
  }

  predicate IsUpperAscii(c: char) {
    'A' <= c <= 'Z'
  }

  predicate AllSpace(s: string) {
    forall i :: 0 <= i < |s| ==> IsSpace(s[i])
  }

  predicate NoSpace(s: string) {
    forall i :: 0 <= i < |s| ==> !IsSpace(s[i])
  }

  predicate StartsWith(s: string, prefix: string) {
    |prefix| <= |s| && s[..|prefix|] == prefix
  }

  /** The index of the first non-whitespace character of `s` at or after
      `from`, or `|s|` when there is none. */
  function SkipSpaces(s: string, from: nat): (n: nat)
    requires from <= |s|
    ensures from <= n <= |s|
    ensures forall k :: from <= k < n ==> IsSpace(s[k])
    ensures n == |s| || !IsSpace(s[n])
    decreases |s| - from
  {
    if from < |s| && IsSpace(s[from]) then SkipSpaces(s, from + 1) else from
  }

  /** The index just past the last non-whitespace character of `s` before
      `to`, or `0` when there is none. */
  function SkipSpacesBack(s: string, to: nat): (m: nat)
    requires to <= |s|
    ensures m <= to
    ensures forall k :: m <= k < to ==> IsSpace(s[k])
    ensures m == 0 || !IsSpace(s[m - 1])
  {
    if to > 0 && IsSpace(s[to - 1]) then SkipSpacesBack(s, to - 1) else to
  }

  /** `s.trimStart()`: `s` without its leading whitespace. */
  function TrimStart(s: string): (r: string)
    ensures |r| <= |s|
    ensures r == [] || !IsSpace(r[0])
  {
    if s != [] && IsSpace(s[0]) then TrimStart(s[1..]) else s
  }

  /** What `trimStart` keeps is a suffix, and what it drops is whitespace. */
  lemma {:induction false} TrimStartDropsSpaces(s: string)
    ensures TrimStart(s) == s[|s| - |TrimStart(s)|..]
    ensures forall k :: 0 <= k < |s| - |TrimStart(s)| ==> IsSpace(s[k])
  {
    if s != [] && IsSpace(s[0]) {
      TrimStartDropsSpaces(s[1..]);
      var n := |s| - |TrimStart(s)|;
      assert s[1..][n - 1..] == s[n..];
      forall k | 0 <= k < n
        ensures IsSpace(s[k])
      {
        if k > 0 {
          assert s[k] == s[1..][k - 1];
        }
      }
    }
  }

  /** `r` occurs in `s` at index `i` with only whitespace before and after it. */
  predicate IsTrimmedAt(s: string, r: string, i: nat) {
    && i + |r| <= |s| && r == s[i..i + |r|]
    && (forall k :: 0 <= k < i ==> IsSpace(s[k]))
    && (forall k :: i + |r| <= k < |s| ==> IsSpace(s[k]))
  }

  /** `s.trim()`: `s` without its leading and trailing whitespace. */
  function Trim(s: string): (r: string)
    ensures r == [] || (!IsSpace(r[0]) && !IsSpace(r[|r| - 1]))
    ensures r == [] <==> AllSpace(s)
    ensures NoSpace(s) ==> r == s
  {
    var i := SkipSpaces(s, 0);
    var j := SkipSpacesBack(s, |s|);
    if j <= i then
      assert i == |s| || j <= i < |s|;
      assert AllSpace(s);
      []
    else
      assert !IsSpace(s[i]);
      s[i..j]
  }

  /** What `trim` keeps is an infix of `s` with only whitespace around it. */
  lemma TrimIsInfix(s: string)
    ensures exists i :: IsTrimmedAt(s, Trim(s), i)
  {
    var i := SkipSpaces(s, 0);
    var j := SkipSpacesBack(s, |s|);
    if j <= i {
      assert i == |s| || j <= i < |s|;
      assert Trim(s) == [];
      assert IsTrimmedAt(s, [], 0);
    } else {
      assert Trim(s) == s[i..j];
      assert IsTrimmedAt(s, s[i..j], i);
    }
  }

  /** `s.replace(/c/g, rep)`: every occurrence of `c` replaced by `rep`. */
  function ReplaceAll(s: string, c: char, rep: string): (r: string)
    ensures c !in s ==> r == s
    ensures |rep| == 1 ==> |r| == |s|
  {
    if s == [] then []
    else (if s[0] == c then rep else [s[0]]) + ReplaceAll(s[1..], c, rep)
  }

  /** Every character of the result is a character of the input other than
      `c`, or a character of the replacement. */
  lemma {:induction false} ReplaceAllChars(s: string, c: char, rep: string)
    ensures forall d :: d in ReplaceAll(s, c, rep) ==> (d in s && d != c) || d in rep
  {
    if s != [] {
      ReplaceAllChars(s[1..], c, rep);
      assert forall d :: d in s[1..] ==> d in s;
    }
  }

  /** Replacing a character by a single character acts position by position. */
  lemma {:induction false} ReplaceAllAt(s: string, c: char, d: char, i: nat)
    requires i < |s|
    ensures |ReplaceAll(s, c, [d])| == |s|
    ensures ReplaceAll(s, c, [d])[i] == if s[i] == c then d else s[i]
  {
    if i > 0 {
      ReplaceAllAt(s[1..], c, d, i - 1);
    }
  }

  /** Replacing characters one by one distributes over concatenation. */
  lemma {:induction false} ReplaceAllConcat(a: string, b: string, c: char, rep: string)
    ensures ReplaceAll(a + b, c, rep) == ReplaceAll(a, c, rep) + ReplaceAll(b, c, rep)
  {
    if a != [] {
      assert (a + b)[1..] == a[1..] + b;
      ReplaceAllConcat(a[1..], b, c, rep);
    } else {
      assert a + b == b;
    }
  }

  /** `parts.join('')`. */
  function Concat(parts: seq<string>): string
  {
    if parts == [] then [] else parts[0] + Concat(parts[1..])
  }

  /** `s.split(sep)` for a one-character separator. */
  function Split(s: string, sep: char): (parts: seq<string>)
    ensures |parts| >= 1
    ensures forall i :: 0 <= i < |parts| ==> sep !in parts[i]
    ensures |parts| == 1 <==> sep !in s
  {
    if s == [] then [[]]
    else
      var rest := Split(s[1..], sep);
      if s[0] == sep then [[]] + rest
      else [[s[0]] + rest[0]] + rest[1..]
  }

  /** `parts.join(sep)`. */
  function Join(parts: seq<string>, sep: char): string
  {
    if parts == [] then []
    else if |parts| == 1 then parts[0]
    else parts[0] + [sep] + Join(parts[1..], sep)
  }

  /** Joining the pieces of a split gives back the original string. */
  lemma {:induction false} JoinSplit(s: string, sep: char)
    ensures Join(Split(s, sep), sep) == s
  {
    if s != [] {
      var rest := Split(s[1..], sep);
      JoinSplit(s[1..], sep);
      if s[0] == sep {
        assert ([[]] + rest)[1..] == rest;
      } else if |rest| > 1 {
        var parts := [[s[0]] + rest[0]] + rest[1..];
        assert parts[1..] == rest[1..];
        assert Join(rest, sep) == rest[0] + [sep] + Join(rest[1..], sep);
      }
    }
  }

  /** Splitting a string with no separator gives the string back whole. */
  lemma {:induction false} SplitNoSeparator(s: string, sep: char)
    requires sep !in s
    ensures Split(s, sep) == [s]
  {
    if s != [] {
      SplitNoSeparator(s[1..], sep);
      assert [s[0]] + s[1..] == s;
    }
  }

  /** A separator after a separator-free piece cuts exactly there. */
  lemma {:induction false} SplitAfterPiece(a: string, b: string, sep: char)
    requires sep !in a
    ensures Split(a + [sep] + b, sep) == [a] + Split(b, sep)
  {
    if a == [] {
      assert a + [sep] + b == [sep] + b;
      assert ([sep] + b)[1..] == b;
    } else {
      assert (a + [sep] + b)[1..] == a[1..] + [sep] + b;
      SplitAfterPiece(a[1..], b, sep);
      assert [a[0]] + a[1..] == a;
    }
  }

  /** Splitting a join of separator-free pieces gives the pieces back. */
  lemma {:induction false} SplitJoin(parts: seq<string>, sep: char)
    requires |parts| >= 1
    requires forall i :: 0 <= i < |parts| ==> sep !in parts[i]
    ensures Split(Join(parts, sep), sep) == parts
  {
    if |parts| == 1 {
      SplitNoSeparator(parts[0], sep);
    } else {
      SplitJoin(parts[1..], sep);
      SplitAfterPiece(parts[0], Join(parts[1..], sep), sep);
      assert [parts[0]] + parts[1..] == parts;
    }
  }
}

=== FILE: uri.dfy ===
/** `decodeURIComponent`, following the abstract operation Decode of
    ECMA-262 (section 19.2.6.6 of the 2022 edition) with an empty reserved
    set: every `%XY` escape is read as a byte, byte sequences are read as
    UTF-8, and malformed input raises a URIError, modelled here as `None`. */
module Uri {
  import opened Text

  predicate IsHexDigit(c: char) {
    ('0' <= c <= '9') || ('a' <= c <= 'f') || ('A' <= c <= 'F')
  }

  function HexValue(c: char): (v: nat)
    requires IsHexDigit(c)
    ensures v < 16
  {
    if '0' <= c <= '9' then c as int - '0' as int
    else if 'a' <= c <= 'f' then c as int - 'a' as int + 10
    else c as int - 'A' as int + 10
  }

  /** The byte written as `%XY` at the head of `s`, when `s` starts with one. */
  function EscapedByte(s: string): (b: Option<nat>)
    ensures b.Some? ==> |s| >= 3 && s[0] == '%' && b.value < 256
    ensures b.None? ==> |s| < 3 || s[0] != '%' || !IsHexDigit(s[1]) || !IsHexDigit(s[2])
  {
    if |s| >= 3 && s[0] == '%' && IsHexDigit(s[1]) && IsHexDigit(s[2])
    then Some(16 * HexValue(s[1]) + HexValue(s[2]))
    else None
  }

  /** The number of leading one bits of a byte: the length of the UTF-8
      sequence it starts (0 for ASCII; 1 and anything above 4 cannot start one). */
  function LeadingOnes(b: nat): (n: nat)
    requires b < 256
    ensures n <= 5
  {
    if b < 0x80 then 0
    else if b < 0xC0 then 1
    else if b < 0xE0 then 2
    else if b < 0xF0 then 3
    else if b < 0xF8 then 4
    else 5
  }

  /** The payload bits of the leading byte of an `n`-byte sequence. */
  function LeadBits(b: nat, n: nat): nat
    requires 2 <= n <= 4
  {
    if n == 2 then b % 0x20 else if n == 3 then b % 0x10 else b % 0x08
  }

  /** Reads `n` continuation escapes (`%80`..`%BF`) from the head of `s`,
      appending the low six bits of each to `acc`. */
  function Continuation(s: string, n: nat, acc: nat): (r: Option<nat>)
    ensures r.Some? ==> |s| >= 3 * n
    decreases n
  {
    if n == 0 then Some(acc)
    else
      match EscapedByte(s)
      case None => None
      case Some(b) =>
        if b / 0x40 != 2 then None
        else Continuation(s[3..], n - 1, acc * 0x40 + b % 0x40)
  }

  /** Whether `cp`, read from an `n`-byte sequence, is what UTF-8 allows
      there: no overlong form, no surrogate, nothing beyond U+10FFFF. */
  predicate ValidScalar(cp: nat, n: nat) {
    || (n == 2 && 0x80 <= cp < 0x800)
    || (n == 3 && 0x800 <= cp < 0x10000 && !(0xD800 <= cp < 0xE000))
    || (n == 4 && 0x10000 <= cp < 0x110000)
  }

  function DecodeUriComponent(s: string): (r: Option<string>)
    ensures '%' !in s ==> r == Some(s)
    ensures r.Some? ==> |r.value| <= |s|
    ensures r.Some? && s != [] && s[0] != '%' ==> r.value != [] && r.value[0] == s[0]
    decreases |s|
  {
    if s == [] then Some([])
    else if s[0] != '%' then
      match DecodeUriComponent(s[1..])
      case None => None
      case Some(t) => assert [s[0]] + s[1..] == s; Some([s[0]] + t)
    else
      match EscapedByte(s)
      case None => None
      case Some(b) =>
        var n := LeadingOnes(b);
        if n == 0 then
          match DecodeUriComponent(s[3..])
          case None => None
          case Some(t) => Some([b as char] + t)
        else if n == 1 || n > 4 then None
        else
          match Continuation(s[3..], n - 1, LeadBits(b, n))
          case None => None
          case Some(cp) =>
            if !ValidScalar(cp, n) then None
            else
              match DecodeUriComponent(s[3 * n..])
              case None => None
              case Some(t) => Some([cp as char] + t)
  }

  /** The characters `encodeURIComponent` leaves as they are. */
  predicate IsUnreserved(c: char) {
    || ('a' <= c <= 'z') || ('A' <= c <= 'Z') || ('0' <= c <= '9')
    || c == '-' || c == '_' || c == '.' || c == '!' || c == '~'
    || c == '*' || c == '\'' || c == '(' || c == ')'
  }

  /** The upper-case hexadecimal digit for `d`. */
  function HexDigit(d: nat): (c: char)
    requires d < 16
    ensures IsHexDigit(c) && HexValue(c) == d
  {
    if d < 10 then ('0' as int + d) as char else ('A' as int + d - 10) as char
  }

  /** The escape `%XY` of one byte. */
  function Escape(b: nat): (e: string)
    requires b < 256
    ensures |e| == 3 && e[0] == '%'
  {
    ['%', HexDigit(b / 16), HexDigit(b % 16)]
  }

  /** The escapes of a sequence of bytes, one after another. */
  function Escapes(bs: seq<nat>): (e: string)
    requires forall i :: 0 <= i < |bs| ==> bs[i] < 256
    ensures |e| == 3 * |bs|
  {
    if bs == [] then [] else Escape(bs[0]) + Escapes(bs[1..])
  }

  /** The UTF-8 bytes of a code point: its leading byte, then its
      continuation bytes. */
  function Utf8Lead(cp: nat): nat
    requires cp < 0x110000
  {
    if cp < 0x80 then cp
    else if cp < 0x800 then 0xC0 + cp / 0x40
    else if cp < 0x10000 then 0xE0 + cp / 0x1000
    else 0xF0 + cp / 0x40000
  }

  function Utf8Tail(cp: nat): (bs: seq<nat>)
    ensures forall i :: 0 <= i < |bs| ==> 0x80 <= bs[i] < 0xC0
  {
    if cp < 0x80 then []
    else if cp < 0x800 then [0x80 + cp % 0x40]
    else if cp < 0x10000 then [0x80 + cp / 0x40 % 0x40, 0x80 + cp % 0x40]
    else [0x80 + cp / 0x1000 % 0x40, 0x80 + cp / 0x40 % 0x40, 0x80 + cp % 0x40]
  }

  /** `encodeURIComponent` on one character: an unreserved character as it
      is, any other as the escapes of its UTF-8 bytes. */
  function EncodeChar(c: char): string {
    if IsUnreserved(c) then [c]
    else
      var tail := Utf8Tail(c as int);
      assert forall i :: 0 <= i < |tail| ==> tail[i] < 256;
      Escape(Utf8Lead(c as int)) + Escapes(tail)
  }

  /** `encodeURIComponent`: the reference encoder that `decodeURIComponent`
      inverts. */
  function EncodeUriComponent(s: string): string {
    if s == [] then [] else EncodeChar(s[0]) + EncodeUriComponent(s[1..])
  }

  /** A decoded tail with one more character in front of it. */
  function Prepend(c: char, r: Option<string>): Option<string> {
    if r.None? then None else Some([c] + r.value)
  }

  /** An escape at the head of a text is read back as its byte. */
  lemma EscapedByteOfEscape(b: nat, rest: string)
    requires b < 256
    ensures EscapedByte(Escape(b) + rest) == Some(b)
    ensures (Escape(b) + rest)[3..] == rest
  {
    var e := Escape(b) + rest;
    assert e[0] == '%' && e[1] == HexDigit(b / 16) && e[2] == HexDigit(b % 16);
  }

  /** The payload the decoder builds from continuation bytes. */
  function Accumulate(acc: nat, bs: seq<nat>): nat
    decreases |bs|
  {
    if bs == [] then acc else Accumulate(acc * 0x40 + bs[0] % 0x40, bs[1..])
  }

  /** Escaped continuation bytes are read back in order. */
  lemma {:induction false} ContinuationOfEscapes(bs: seq<nat>, rest: string, acc: nat)
    requires forall i :: 0 <= i < |bs| ==> 0x80 <= bs[i] < 0xC0
    ensures Continuation(Escapes(bs) + rest, |bs|, acc) == Some(Accumulate(acc, bs))
    decreases |bs|
  {
    if bs != [] {
      var e := Escapes(bs) + rest;
      assert e == Escape(bs[0]) + (Escapes(bs[1..]) + rest);
      EscapedByteOfEscape(bs[0], Escapes(bs[1..]) + rest);
      ContinuationOfEscapes(bs[1..], rest, acc * 0x40 + bs[0] % 0x40);
    }
  }

  /** Dividing by 0x40 twice is dividing by 0x1000. */
  lemma DivDiv(x: nat)
    ensures x / 0x1000 * 0x40 + x / 0x40 % 0x40 == x / 0x40
  {
    var q, r := x / 0x40, x % 0x40;
    var p, r2 := q / 0x40, q % 0x40;
    assert x == 0x1000 * p + (0x40 * r2 + r);
    assert x / 0x1000 == p;
  }

  /** The decoder reassembles the code point from the UTF-8 bytes. */
  lemma Utf8Reassembles(cp: nat)
    requires 0x80 <= cp < 0x110000
    ensures 2 <= LeadingOnes(Utf8Lead(cp)) <= 4
    ensures LeadingOnes(Utf8Lead(cp)) == |Utf8Tail(cp)| + 1
    ensures Accumulate(LeadBits(Utf8Lead(cp), |Utf8Tail(cp)| + 1), Utf8Tail(cp)) == cp
  {
    if cp < 0x800 {
      Utf8Two(cp);
    } else if cp < 0x10000 {
      Utf8Three(cp);
    } else {
      Utf8Four(cp);
    }
  }

  lemma Utf8Two(cp: nat)
    requires 0x80 <= cp < 0x800
    ensures LeadingOnes(Utf8Lead(cp)) == 2 && |Utf8Tail(cp)| == 1
    ensures Accumulate(LeadBits(Utf8Lead(cp), 2), Utf8Tail(cp)) == cp
  {
    var acc := cp / 0x40;
    assert LeadBits(Utf8Lead(cp), 2) == acc;
    assert Accumulate(acc, Utf8Tail(cp)) == Accumulate(acc * 0x40 + cp % 0x40, []);
  }

  lemma Utf8Three(cp: nat)
    requires 0x800 <= cp < 0x10000
    ensures LeadingOnes(Utf8Lead(cp)) == 3 && |Utf8Tail(cp)| == 2
    ensures Accumulate(LeadBits(Utf8Lead(cp), 3), Utf8Tail(cp)) == cp
  {
    var tail := Utf8Tail(cp);
    var acc := cp / 0x1000;
    assert LeadBits(Utf8Lead(cp), 3) == acc;
    DivDiv(cp);
    assert Accumulate(acc, tail) == Accumulate(cp / 0x40, tail[1..]);
    assert Accumulate(cp / 0x40, tail[1..]) == Accumulate(cp / 0x40 * 0x40 + cp % 0x40, []);
  }

  lemma Utf8Four(cp: nat)
    requires 0x10000 <= cp < 0x110000
    ensures LeadingOnes(Utf8Lead(cp)) == 4 && |Utf8Tail(cp)| == 3
    ensures Accumulate(LeadBits(Utf8Lead(cp), 4), Utf8Tail(cp)) == cp
  {
    var tail := Utf8Tail(cp);
    var acc := cp / 0x40000;
    assert LeadBits(Utf8Lead(cp), 4) == acc;
    DivDiv(cp);
    DivDiv(cp / 0x40);
    assert cp / 0x40 / 0x1000 == cp / 0x40000;
    assert cp / 0x40 / 0x40 == cp / 0x1000;
    assert Accumulate(acc, tail) == Accumulate(cp / 0x1000, tail[1..]);
    assert Accumulate(cp / 0x1000, tail[1..]) == Accumulate(cp / 0x40, tail[2..]);
    assert Accumulate(cp / 0x40, tail[2..]) == Accumulate(cp / 0x40 * 0x40 + cp % 0x40, []);
  }

  /** Decoding one encoded character gives that character back, in front of
      whatever the rest decodes to. */
  lemma DecodeEncodeChar(c: char, rest: string)
    ensures DecodeUriComponent(EncodeChar(c) + rest) == Prepend(c, DecodeUriComponent(rest))
  {
    if IsUnreserved(c) {
      DecodeUnreserved(c, rest);
    } else if c as int < 0x80 {
      DecodeAscii(c, rest);
    } else {
      DecodeMultibyte(c, rest);
    }
  }

  /** An unreserved character is copied. */
  lemma DecodeUnreserved(c: char, rest: string)
    requires IsUnreserved(c)
    ensures DecodeUriComponent([c] + rest) == Prepend(c, DecodeUriComponent(rest))
  {
    assert ([c] + rest)[1..] == rest;
  }

  /** An escaped ASCII character decodes to itself. */
  lemma DecodeAscii(c: char, rest: string)
    requires c as int < 0x80
    ensures DecodeUriComponent(Escape(c as int) + rest) == Prepend(c, DecodeUriComponent(rest))
  {
    EscapedByteOfEscape(c as int, rest);
  }

  /** A character outside ASCII: its escaped UTF-8 bytes decode to it. */
  lemma DecodeMultibyte(c: char, rest: string)
    requires 0x80 <= c as int
    ensures DecodeUriComponent(Escape(Utf8Lead(c as int)) + Escapes(Utf8Tail(c as int)) + rest)
            == Prepend(c, DecodeUriComponent(rest))
  {
    var cp := c as int;
    var tail := Utf8Tail(cp);
    var n := |tail| + 1;
    var e := Escape(Utf8Lead(cp)) + Escapes(tail) + rest;
    assert e == Escape(Utf8Lead(cp)) + (Escapes(tail) + rest);
    EscapedByteOfEscape(Utf8Lead(cp), Escapes(tail) + rest);
    Utf8Reassembles(cp);
    ContinuationOfEscapes(tail, rest, LeadBits(Utf8Lead(cp), n));
    assert ValidScalar(cp, n);
    assert e[3 * n..] == rest;
  }

  /** `decodeURIComponent` inverts `encodeURIComponent` on every text. */
  lemma {:induction false} DecodeEncode(s: string)
    ensures DecodeUriComponent(EncodeUriComponent(s)) == Some(s)
  {
    if s != [] {
      DecodeEncode(s[1..]);
      DecodeEncodeChar(s[0], EncodeUriComponent(s[1..]));
      assert [s[0]] + s[1..] == s;
    }
  }
}
